=== FILE: README.md ===
# spendsmart finance tracker: a Dafny model of its core

spendsmart is a single-page personal finance tracker. A provider owns two
collections, each mirrored to the browser's storage:

- the ledger of transactions (type, category, amount, optional note, date);
- the list of monthly budget goals (category, limit).

The pages derive everything else from those two collections:

- the overview's stat cards, expense pie chart, monthly area chart and recent list;
- the transaction list's filter, sort, pages and filtered totals;
- the budget page's progress bars, summary cards and add/edit/remove handlers;
- the "Add Transaction" dialog's submit guard.

This project models that core as pure Dafny functions over immutable
sequences, and proves what each operation keeps and computes.

| file | module | models |
|---|---|---|
| `seqs.dfy` | `Seqs` | `Array.prototype.filter`, `reduce` sums, `[...new Set(xs)]`, reversal, `Result` |
| `strings.dfy` | `Strings` | `toLowerCase`, `includes`, JavaScript's `<` on strings |
| `sorting.dfy` | `Sorting` | a stable sort by a string key, in either direction |
| `entities.dfy` | `Entities` | transactions, budgets, number inputs, totals, the month of a date |
| `mock_data.dfy` | `MockData` | category vocabularies, colours, seed ledger and budgets |
| `finance_context.dfy` | `FinanceStore` | the four mutations and the derived totals of the provider |
| `transactions.dfy` | `TransactionQuery` | the transaction list page |
| `grouping.dfy` | `Grouping` | the "sum per category" object fold |
| `dashboard.dfy` | `Dashboard` | the overview page |
| `budget.dfy` | `BudgetPage` | the budget page |
| `add_transaction_modal.dfy` | `AddTransactionForm` | the add dialog |
| `seed_facts.dfy` | `SeedFacts` | what the seed data shows on first start |

Modelling choices:

- Amounts are exact reals.
- A number input is `Blank` (the empty string the browser reports) or `Entered(value)`.
- A transaction's type stays a string, so "every record is income or expense" is a stated hypothesis, not a type.
- Dates are `YYYY-MM-DD` strings:
  - a date's month is its first seven characters;
  - the month filter is a prefix test;
  - dates are ordered as strings.
- A JavaScript object used as an accumulator is a list of entries in key-insertion order.
- Clock readings are parameters: the `Date.now()` reading from which the new id is drawn, and the current month and today's date.

## Model

| member | source | states |
|---|---|---|
| FinanceStore.AddTransaction | src/context/FinanceContext.jsx:27-30 | the new record, stamped with the given id and carrying the draft's fields, goes in front; the old ledger follows unchanged |
| FinanceStore.DeleteTransaction | src/context/FinanceContext.jsx:32-34 | the result is an order-preserving subsequence holding every record with another id as often as before and none with this id |
| FinanceStore.DeleteAbsentId | src/context/FinanceContext.jsx:32-34 | deleting an id no record carries leaves the ledger unchanged |
| FinanceStore.DeleteTransactionIdempotent | src/context/FinanceContext.jsx:32-34 | deleting the same id twice is the same as deleting it once |
| FinanceStore.DeleteUndoesAdd | src/context/FinanceContext.jsx:27-34 | adding under a fresh id and then deleting that id restores the ledger |
| FinanceStore.AddKeepsIdsUnique | src/context/FinanceContext.jsx:27-30 | adding under an id not in use keeps ids pairwise distinct |
| FinanceStore.SameClockAddsCollide | src/context/FinanceContext.jsx:27-34 | two additions that read the same clock value get the same id, and deleting that id removes both |
| FinanceStore.MaxId | src/context/FinanceContext.jsx:28 | the result bounds every id in use and is one of them on a non-empty ledger |
| FinanceStore.NextId | src/context/FinanceContext.jsx:28 | the id drawn is fresh, at least the clock reading, and above every id in use; it is the clock reading itself whenever that reading is past every id in use |
| FinanceStore.AddWithNextId | src/context/FinanceContext.jsx:27-30 | adding under the drawn id puts the draft in front under an id no record carries, keeps ids distinct, and is undone by deleting that id; the id is the clock reading whenever that reading is past every id in use |
| FinanceStore.NextIdSeparatesSameClockAdds | src/context/FinanceContext.jsx:27-34 | two additions within one clock reading get different ids, and deleting the newer one leaves the older one |
| FinanceStore.UpsertBudget | src/context/FinanceContext.jsx:36-42 | an existing category keeps its place and takes the new limit, the others are untouched; a new category is appended |
| FinanceStore.UpsertIsMapUpdate | src/context/FinanceContext.jsx:36-42 | seen as a category-to-limit map, upserting is a map update at that category |
| FinanceStore.UpsertKeepsCategoriesUnique | src/context/FinanceContext.jsx:36-42 | a budget list without repeated categories stays without them after an upsert |
| FinanceStore.UpsertTwice | src/context/FinanceContext.jsx:36-42 | two upserts of one category leave exactly one entry for it, holding the second limit |
| FinanceStore.DeleteBudget | src/context/FinanceContext.jsx:44-46 | the result is an order-preserving subsequence keeping every entry of another category and none of this one |
| FinanceStore.DeleteIsMapRemoval | src/context/FinanceContext.jsx:44-46 | seen as a map, deleting a budget removes exactly that category's key |
| FinanceStore.DeleteBudgetIdempotent | src/context/FinanceContext.jsx:44-46 | deleting a category twice is the same as deleting it once |
| FinanceStore.DeleteAbsentBudget | src/context/FinanceContext.jsx:44-46 | deleting a category nobody budgets leaves the list unchanged |
| FinanceStore.DeleteBudgetKeepsCategoriesUnique | src/context/FinanceContext.jsx:44-46 | removing a category's budgets keeps at most one budget per category |
| FinanceStore.LimitsByCategoryKeys | src/context/FinanceContext.jsx:37 | the map has a key exactly for the categories the `find` would find |
| FinanceStore.TotalIncome | src/context/FinanceContext.jsx:49-51 | `totalIncome`: the sum of the amounts of the records whose type is "income" |
| FinanceStore.TotalExpenses | src/context/FinanceContext.jsx:53-55 | `totalExpenses`: the sum of the amounts of the records whose type is "expense" |
| FinanceStore.Balance | src/context/FinanceContext.jsx:57 | `balance`: total income minus total expenses |
| FinanceStore.BalanceIsSignedSum | src/context/FinanceContext.jsx:49-57 | the balance is the sum of every record taken with sign plus for income and minus for expense |
| FinanceStore.TotalsCoverLedger | src/context/FinanceContext.jsx:49-55 | when every type is income or expense, the two totals add up to the whole ledger, and they are non-negative when amounts are |
| FinanceStore.AddMovesTotals | src/context/FinanceContext.jsx:27-30 | adding a record moves exactly the total of its own type, by its amount |
| TransactionQuery.Matches | src/pages/Transactions.jsx:23-30 | the filter test: the search text occurs, ignoring case, in the category or the note (a missing note as ""), and each of type, category and month is "all" or matches |
| TransactionQuery.Filtered | src/pages/Transactions.jsx:23-30 | the filtered list is an order-preserving subsequence holding every record that matches all four conditions, as often as it is stored, and nothing else |
| TransactionQuery.InitialFilterKeepsAll | src/pages/Transactions.jsx:12-15 | with an empty search and every selector on "all", the filter drops nothing |
| TransactionQuery.Ordered | src/pages/Transactions.jsx:32-36 | the sorted list is a permutation of the filtered list, with dates never increasing (descending) or never decreasing (ascending) |
| TransactionQuery.OrderedIsStable | src/pages/Transactions.jsx:32-36 | records sharing a date keep their stored order |
| TransactionQuery.InitialListNewestFirst | src/pages/Transactions.jsx:12-36 | as the page opens, with the initial controls and the initial descending sort, the list is the whole ledger with dates never increasing |
| TransactionQuery.DirectionsAreReverses | src/pages/Transactions.jsx:32-36 | when no two filtered records share a date, the ascending list is the descending list reversed |
| TransactionQuery.TotalPages | src/pages/Transactions.jsx:38 | the page count is the least number of ten-record pages that holds the list |
| TransactionQuery.Page | src/pages/Transactions.jsx:39 | `slice((p - 1) * 10, p * 10)` with JavaScript's clamping of out-of-range and negative bounds |
| TransactionQuery.PageContents | src/pages/Transactions.jsx:38-39 | a page holds at most ten records; it is the matching slice when it starts inside the list, empty past the last page, and non-empty up to it |
| TransactionQuery.PagesThroughIsPrefix | src/pages/Transactions.jsx:39 | the first k pages, concatenated, are the list's first 10k records (or all of them) |
| TransactionQuery.PagesCoverList | src/pages/Transactions.jsx:38-39 | all the pages, concatenated, are exactly the filtered list |
| TransactionQuery.TwentyThreeRecords | src/pages/Transactions.jsx:38-39 | twenty-three records make three pages, the last holding three |
| TransactionQuery.PrevPage | src/pages/Transactions.jsx:165 | the previous-page control steps back one page from any page after the first and stays on page 1 otherwise, as `Math.max(1, p - 1)` |
| TransactionQuery.NextPage | src/pages/Transactions.jsx:183 | the next-page control advances by one before the last page and stays on the last page from there on, as `Math.min(totalPages, p + 1)` |
| TransactionQuery.PageControlsStayInRange | src/pages/Transactions.jsx:165-183 | from a valid page both controls land on a valid page |
| TransactionQuery.Tally | src/pages/Transactions.jsx:41-45 | the page's reduce: an income record adds to income, any other record to expenses |
| TransactionQuery.FilteredTotals | src/pages/Transactions.jsx:41-45 | the tally taken over the filtered and sorted list |
| TransactionQuery.Net | src/pages/Transactions.jsx:75 | the net card: filtered income minus filtered expenses |
| TransactionQuery.TallySplits | src/pages/Transactions.jsx:41-45 | the tally's income is the income records' total and its expenses are the total of every other record |
| TransactionQuery.FilteredTotalsCoverFiltered | src/pages/Transactions.jsx:41-45 | whatever the sort, the filtered totals split the whole filtered list between income and everything else |
| TransactionQuery.InitialTotalsAreStoreTotals | src/pages/Transactions.jsx:41-45 | with the initial controls and known types, the filtered totals are the provider's totals and the net is its balance |
| TransactionQuery.MonthsOfMembers | src/pages/Transactions.jsx:21 | a month is listed exactly when some record's date starts with it |
| TransactionQuery.Months | src/pages/Transactions.jsx:21 | the month choices are exactly the months of the records, newest first, without repeats |
| TransactionQuery.OneMonthListed | src/pages/Transactions.jsx:21 | a non-empty ledger within one month offers that month alone |
| Grouping.GroupByCategory | src/pages/Budget.jsx:59-62 | the per-category fold over a list of records: each record adds its amount to its category's running sum, which starts at 0, and the sums are kept as entries in key-insertion order |
| Grouping.AddTo | src/pages/Dashboard.jsx:25-27 | one fold step adds the amount under its key (appending a new key at the end), leaves other keys' sums alone and grows the grand sum by the amount |
| Grouping.GroupKeysInFirstSeenOrder | src/pages/Dashboard.jsx:23-30 | the keys come out in order of each category's first record, each once |
| Grouping.GroupKeys | src/pages/Dashboard.jsx:23-30 | a category is a key exactly when some record has it, and no key repeats |
| Grouping.GroupLookup | src/pages/Dashboard.jsx:23-28 | the sum under a category is the total of that category's records, zero when it has none |
| Grouping.GroupSum | src/pages/Dashboard.jsx:23-28 | the entries add up to the total of all records folded |
| Dashboard.ExpenseByCategory | src/pages/Dashboard.jsx:23-28 | `expenseByCategory`: the per-category fold over the expense records |
| Dashboard.ExpenseBreakdown | src/pages/Dashboard.jsx:23-30 | the pie has one slice per category with an expense, sized at that category's expense total, and the slices add up to the total-expenses card |
| Dashboard.MonthlyData | src/pages/Dashboard.jsx:33-39 | `monthlyData`: the per-month fold over the whole ledger, one fold step per record in ledger order |
| Dashboard.AddToMonth | src/pages/Dashboard.jsx:33-39 | one fold step creates the month's row if missing, adds the amount to income for an income record and to expenses otherwise, and leaves other months alone |
| Dashboard.MonthlyDataMonths | src/pages/Dashboard.jsx:33-39 | the rows' months are the records' distinct months in order of first appearance |
| Dashboard.MonthlyDataValues | src/pages/Dashboard.jsx:33-39 | each month's row holds that month's income and that month's other amounts |
| Dashboard.MonthlyDataSums | src/pages/Dashboard.jsx:33-39 | the income column adds up to total income and the expense column to every non-income record |
| Dashboard.MonthlySeries | src/pages/Dashboard.jsx:41 | the chart series is a permutation of the month rows |
| Dashboard.MonthlySeriesAscending | src/pages/Dashboard.jsx:41 | the series is in strictly ascending month order |
| Dashboard.MonthlySeriesMonths | src/pages/Dashboard.jsx:33-41 | the series has a point exactly for the months some record falls in |
| Dashboard.MonthlySeriesValues | src/pages/Dashboard.jsx:33-41 | every point carries its month's income and expenses |
| Dashboard.MonthlySeriesSums | src/pages/Dashboard.jsx:33-41 | with known types, the chart's columns add up to the stat cards' income and expenses |
| Dashboard.OneMonthSeries | src/pages/Dashboard.jsx:33-41 | a non-empty ledger within one month charts one point at that month's totals |
| Dashboard.Recent | src/pages/Dashboard.jsx:46 | the recent list is the ledger's first five records, or all of them when there are fewer |
| Dashboard.RecentAfterAdd | src/pages/Dashboard.jsx:46 | a record just added heads the recent list, followed by the first four before it |
| BudgetPage.Percent | src/pages/Budget.jsx:7 | the bar's width is the spent share of the limit as a percentage, capped at 100 |
| BudgetPage.Classify | src/pages/Budget.jsx:8-9 | the bar colour: red when spent exceeds the limit, else orange when the percentage is above 75, else green |
| BudgetPage.ClassifyThresholds | src/pages/Budget.jsx:8-9 | red exactly when spent exceeds the limit; orange exactly above three quarters and not over; green otherwise |
| BudgetPage.ClassifyExamples | src/pages/Budget.jsx:7-9 | 150, 80 and 50 of 100 are red, orange and green; 85 of 300 is green; exactly 100 of 100 is orange |
| BudgetPage.BadgeFor | src/pages/Budget.jsx:28-31 | the badge says "over" exactly when spent exceeds the limit, with the excess, and otherwise shows what is left |
| BudgetPage.BadgeAgreesWithColour | src/pages/Budget.jsx:8-31 | the badge says "over" exactly when the bar is red |
| BudgetPage.ExpensesOfMonthAll | src/pages/Budget.jsx:57-59 | when every record is dated in the month, the month filter keeps every expense |
| BudgetPage.SpendingByCategory | src/pages/Budget.jsx:57-63 | `spendingByCategory`: the per-category fold over the expense records dated in the current month |
| BudgetPage.SpendingIsCategoryTotal | src/pages/Budget.jsx:57-63 | the spending under a category is the total of that category's expenses dated in the month, and a category is a key exactly when it has one |
| BudgetPage.TotalBudgeted | src/pages/Budget.jsx:65 | `totalBudgeted`: the sum of every budget's limit |
| BudgetPage.TotalSpentOnBudgeted | src/pages/Budget.jsx:66 | `totalSpentOnBudgeted`: the sum, budget by budget, of the category's spending, 0 when it has none |
| BudgetPage.OverBudgetCount | src/pages/Budget.jsx:67 | `overBudgetCount`: the length of the over-budget list |
| BudgetPage.OverBudgets | src/pages/Budget.jsx:67 | the over-budget list is an order-preserving subsequence of the budgets holding each budget whose spending exceeds its limit as often as it is stored, and nothing else |
| BudgetPage.UsedPercent | src/pages/Budget.jsx:107 | the "budget used" figure is spent over budgeted as a percentage when something is budgeted; over a zero budget it is 0 when nothing is spent and an infinity of the spending's sign otherwise |
| BudgetPage.UsedPercentIsFinite | src/pages/Budget.jsx:107 | with positive limits the figure is always finite, and 0 when there are no budgets |
| BudgetPage.OverBudgetCountsRedBars | src/pages/Budget.jsx:67 | with positive limits, the over-budget list is exactly the budgets with a red bar, in order, so the count on the card is the number of red bars |
| BudgetPage.SpentOnBudgetedIsPerBudget | src/pages/Budget.jsx:66 | summing the lookups over the budgets is summing, budget by budget, the matching expenses |
| BudgetPage.SpentOnBudgetedCountsOnce | src/pages/Budget.jsx:57-66 | with categories not repeated, spent-on-budgeted is the total of this month's expenses in budgeted categories, each expense counted once |
| BudgetPage.TotalBudgetedAfterUpsert | src/pages/Budget.jsx:65 | an upsert of a new category raises total budgeted by its limit; of an existing one, by the change of limit |
| BudgetPage.AvailableCategories | src/pages/Budget.jsx:69 | the add form offers exactly the expense categories without a budget, in vocabulary order |
| BudgetPage.HandleAdd | src/pages/Budget.jsx:71-81 | refused with the message exactly when the category or limit is empty or the limit is not positive; otherwise the list is the store's upsert of that category at that limit (in place when present, appended when new), so the map gains that category at that limit and the form stops offering it |
| BudgetPage.HandleUpdate | src/pages/Budget.jsx:83-88 | an empty or non-positive limit changes nothing; otherwise the list is the store's upsert, so a budgeted category takes the new limit where it stands and every other entry stays as it was |
| BudgetPage.HandlersKeepLimitsPositive | src/pages/Budget.jsx:71-88 | adding, editing and removing keep every limit positive |
| BudgetPage.HandlersKeepCategoriesUnique | src/pages/Budget.jsx:71-89 | adding, editing and removing goals keeps at most one budget per category |
| BudgetPage.SaveUnchangedEdit | src/pages/Budget.jsx:83-88 | opening the editor (prefilled with the current limit) and saving changes nothing: the budget list comes back exactly as it was, order and entries alike |
| BudgetPage.RemoveFreesCategory | src/pages/Budget.jsx:69 | after a budget is removed, its category is offered again |
| AddTransactionForm.InitialForm | src/components/AddTransactionModal.jsx:7-8 | the dialog opens as an expense with empty category, amount and note, dated today |
| AddTransactionForm.Apply | src/components/AddTransactionModal.jsx:35-96 | each control sets its own field and leaves the others as they were; switching the type also clears the category |
| AddTransactionForm.ReplayKeepsConsistent | src/components/AddTransactionModal.jsx:35-58 | whatever the user does through the controls, the category is empty or belongs to the current type |
| AddTransactionForm.Submit | src/components/AddTransactionModal.jsx:11-17 | refused with the message exactly when category, amount or date is empty; otherwise a record with the form's fields and the amount as a number |
| AddTransactionForm.SubmitTo | src/components/AddTransactionModal.jsx:11-17 | a refused submit leaves the ledger alone; an accepted one puts the record in front under an id no other record carries, which is the clock reading whenever that reading is past every id in use, and deleting that id undoes it |
| AddTransactionForm.SubmittedRecordIsWellTyped | src/components/AddTransactionModal.jsx:17 | a record added through the dialog has a category of its type's vocabulary |
| AddTransactionForm.ZeroAmountAccepted | src/components/AddTransactionModal.jsx:13 | an amount of 0 passes the guard |
| AddTransactionForm.TypeSwitchNeedsNewCategory | src/components/AddTransactionModal.jsx:13-35 | after switching the type the dialog refuses to submit until a category is chosen again |
| AddTransactionForm.InitialFormIsRefused | src/components/AddTransactionModal.jsx:7-16 | the dialog as it opens cannot be submitted |
| MockData.VocabularyWellFormed | src/data/mockData.js:1-4 | the two vocabularies are disjoint and have no repeats |
| MockData.ColorsCoverVocabulary | src/data/mockData.js:1-21 | `CATEGORY_COLORS` (the constant `MockData.CATEGORY_COLORS`) gives a colour to every category of either vocabulary, and only to those |
| SeedFacts.SeedLedgerWellFormed | src/data/mockData.js:23-38 | `initialTransactions` (the constant `MockData.INITIAL_TRANSACTIONS`) has ids 1 to 14 in order; every record is income or expense, with a category of its type, a positive amount and a February 2025 date |
| SeedFacts.SeedTotals | src/data/mockData.js:23-38 | on first start the cards show 4690 income, 1924 expenses and a 2766 balance |
| SeedFacts.SeedBudgetsWellFormed | src/data/mockData.js:40-46 | `initialBudgets` (the constant `MockData.INITIAL_BUDGETS`) names distinct expense categories with positive limits totalling 780 |
| SeedFacts.SeedSpending | src/data/mockData.js:23-38 | February 2025 spending per category in the seed ledger: Rent 1200, Food 180, Transport 45, Shopping 120, Entertainment 30, Health 60, Utilities 90, Education 199, else 0 |
| SeedFacts.SeedFoodBudget | src/pages/Budget.jsx:7-31 | Food has spent 180 of 300: a 60 percent green bar with 120 left |
| SeedFacts.SeedBudgetCards | src/pages/Budget.jsx:65-67 | in February 2025 the cards show 780 budgeted, 435 spent on budgeted categories and no budget over |
| SeedFacts.SeedTransactionPage | src/pages/Transactions.jsx:21-38 | the seed ledger offers February 2025 as its only month and fills two pages |
| SeedFacts.SeedMonthlySeries | src/pages/Dashboard.jsx:33-41 | the seed chart has one point, February 2025, at 4690 income and 1924 expenses |
| SeedFacts.TotalFilterIsSumIf | src/context/FinanceContext.jsx:49-55 | a filtered total is the running sum, record by record, of the amounts that pass |

## Left out

- Storage: `localStorage` persistence and the JSON round trip of both collections are not modelled. The store starts from the seed data.
- Clocks: `Date.now()`, the current month and today's date are parameters.
- Number conversion: `Number(...)` on free text and its NaN results are not modelled. The browser's number inputs hand the page either an empty string or a numeric one. The `min` attributes of those inputs are left out too. Both forms submit through `onSubmit`, so the browser's validation of `min="0"` in the dialog and of `min="1"` (with the default step of 1) in the add-goal form stops a negative amount, and a limit below 1 or with a fraction, before the handlers run. The model's handlers accept a superset of the inputs that reach them.
- Arithmetic: amounts are exact reals, not IEEE doubles. Rounding in sums and in `toFixed`/`toLocaleString` formatting is not modelled.
- Dates: the sort compares dates as strings, where the page compares `new Date(...)` values; the two agree for well-formed `YYYY-MM-DD` dates. The chart's `localeCompare` on months is modelled as code-unit order, which agrees on `YYYY-MM` strings. The short month names on the chart axis are not modelled.
- Lower-casing: `toLowerCase` is modelled for ASCII letters only.
- BudgetPage.Percent: requires a positive limit, because the page divides by the limit. The handlers keep every limit positive (`HandlersKeepLimitsPositive`), and the seed limits are positive. A zero limit loaded from storage is not modelled: the code would then show a red bar for any spending and a green one (a NaN width) for none.
- BudgetPage.Classify: requires a positive limit, for the same reason.
- Styling: colours are modelled only as the three bar states and the category colour table. Class names and layout are left out.
- UI shell: React state plumbing, the charts library, the sidebar, the layout, the not-found page and routing are not modelled.
- AddTransactionForm.SubmitTo: adds under the corrected id draw `FinanceStore.NextId`, not under the raw `Date.now()` reading (see "## Findings"). The two agree whenever the clock is past every id in use, which the contract states. They differ only when the clock has not moved past the largest id, where the program would reuse an id.
- Page-number buttons: the buttons between the previous and next controls set the page directly and are not modelled separately.

## Findings

| source | as written | input that shows it | evidently intended | confidence | as-written member | corrected member |
|---|---|---|---|---|---|---|
| src/context/FinanceContext.jsx:28 | a new record's id is `Date.now()`, and deletion removes every record with the given id | two additions within the same millisecond, then deleting the newer record | every record has its own id, and deleting one record removes only that record | not executed | FinanceStore.SameClockAddsCollide | FinanceStore.AddWithNextId |

=== FILE: add_transaction_modal.dfy ===
/** The "Add Transaction" dialog: its form state, the edits the controls
    offer, and the submit guard that either reports the missing fields or
    hands a new record to the store.

    Today's date and the clock reading used as the new record's id are
    parameters. */
module AddTransactionForm {
  import opened Seqs
  import opened Entities
  import opened FinanceStore
  import MockData

  /** The dialog's state: the type toggle and the four form fields. */
  datatype Form = Form(kind: string, category: string, amount: NumberInput, note: string, date: string)

  /** The dialog as it opens: an expense, no category, empty amount and
      note, and today's date. */
  function InitialForm(today: string): (f: Form)
    ensures f.kind == EXPENSE && f.category == "" && f.amount.Blank? && f.note == ""
    ensures f.date == today
  {
    Form(EXPENSE, "", Blank, "", today)
  }

  /** One user action on the dialog. */
  datatype Edit =
    | ChooseType(kind: string)
    | ChooseCategory(category: string)
    | EnterAmount(amount: NumberInput)
    | EnterNote(note: string)
    | EnterDate(date: string)

  /** What the controls let the user do: the toggle has two buttons, and
      the category select lists the placeholder and the current type's
      vocabulary. */
  predicate Offered(f: Form, e: Edit) {
    match e
    case ChooseType(k) => k == EXPENSE || k == INCOME
    case ChooseCategory(c) => c == "" || c in MockData.Categories(f.kind)
    case _ => true
  }

  /** The state after an edit. Switching the type clears the category. */
  function Apply(f: Form, e: Edit): (r: Form)
    ensures e.ChooseType? ==> r.kind == e.kind && r.category == ""
    ensures !e.ChooseType? ==> r.kind == f.kind
    ensures e.ChooseCategory? ==> r.category == e.category
    ensures e.EnterAmount? ==> r.amount == e.amount
    ensures e.EnterNote? ==> r.note == e.note
    ensures e.EnterDate? ==> r.date == e.date
    ensures !e.ChooseType? && !e.ChooseCategory? ==> r.category == f.category
    ensures !e.EnterAmount? ==> r.amount == f.amount
    ensures !e.EnterNote? ==> r.note == f.note
    ensures !e.EnterDate? ==> r.date == f.date
  {
    match e
    case ChooseType(k) => f.(kind := k, category := "")
    case ChooseCategory(c) => f.(category := c)
    case EnterAmount(a) => f.(amount := a)
    case EnterNote(n) => f.(note := n)
    case EnterDate(d) => f.(date := d)
  }

  /** A run of edits, each offered by the state it is made in. */
  predicate AllOffered(f: Form, es: seq<Edit>)
    decreases |es|
  {
    es == [] || (Offered(f, es[0]) && AllOffered(Apply(f, es[0]), es[1..]))
  }

  function Replay(f: Form, es: seq<Edit>): Form
    decreases |es|
  {
    if es == [] then f else Replay(Apply(f, es[0]), es[1..])
  }

  /** The type is one of the two toggle values and the category is empty or
      belongs to that type's vocabulary. */
  predicate Consistent(f: Form) {
    && (f.kind == EXPENSE || f.kind == INCOME)
    && (f.category == "" || f.category in MockData.Categories(f.kind))
  }

  lemma ApplyKeepsConsistent(f: Form, e: Edit)
    requires Consistent(f) && Offered(f, e)
    ensures Consistent(Apply(f, e))
  {
  }

  /** Whatever the user does through the controls, the dialog never holds a
      category of the other type. */
  lemma {:induction false} ReplayKeepsConsistent(f: Form, es: seq<Edit>)
    requires Consistent(f) && AllOffered(f, es)
    ensures Consistent(Replay(f, es))
    decreases |es|
  {
    if es != [] {
      ApplyKeepsConsistent(f, es[0]);
      ReplayKeepsConsistent(Apply(f, es[0]), es[1..]);
    }
  }

  const SUBMIT_ERROR: string := "Category, amount and date are required."

  /** `handleSubmit`: refused when the category, the amount or the date is
      empty; otherwise the record to add, with the amount as a number and
      the note as typed. */
  function Submit(f: Form): (r: Result<Draft>)
    ensures r.Err? <==> f.category == "" || f.amount.Blank? || f.date == ""
    ensures r.Err? ==> r.message == SUBMIT_ERROR
    ensures r.Ok? ==> r.value.kind == f.kind && r.value.category == f.category && r.value.date == f.date
    ensures r.Ok? ==> r.value.amount == f.amount.value && r.value.note == Some(f.note)
  {
    if f.category == "" || f.amount.Blank? || f.date == "" then Err(SUBMIT_ERROR)
    else Ok(Draft(f.kind, f.category, f.amount.value, Some(f.note), f.date))
  }

  /** Submitting and, on success, adding the record under an id drawn from
      the clock value `now` that no record carries yet: the reading itself
      whenever it is past every id in use. A refused submit leaves the
      ledger alone. */
  function SubmitTo(ts: seq<Transaction>, f: Form, now: int): (r: Result<seq<Transaction>>)
    ensures r.Err? <==> Submit(f).Err?
    ensures r.Ok? ==> |r.value| == |ts| + 1 && r.value[1..] == ts && FreshId(ts, r.value[0].id)
    ensures r.Ok? ==> r.value[0] == WithId(Submit(f).value, r.value[0].id)
    ensures r.Ok? ==> DeleteTransaction(r.value, r.value[0].id) == ts
    ensures r.Ok? && (forall t :: t in ts ==> t.id < now) ==> r.value[0].id == now
  {
    match Submit(f)
    case Err(m) => Err(m)
    case Ok(d) => Ok(AddWithNextId(ts, d, now))
  }

  /** A record added through the dialog has a known type and a category of
      that type's vocabulary, so a ledger of income and expense records
      stays one. */
  lemma SubmittedRecordIsWellTyped(ts: seq<Transaction>, f: Form, now: int)
    requires Consistent(f) && SubmitTo(ts, f, now).Ok?
    ensures var r := SubmitTo(ts, f, now).value;
      && r[0].category in MockData.Categories(r[0].kind)
      && (KnownKinds(ts) ==> KnownKinds(r))
  {
    var r := SubmitTo(ts, f, now).value;
    assert r == [r[0]] + ts;
  }

  /** A zero amount passes the guard: only an empty field is refused. */
  lemma ZeroAmountAccepted(category: string, date: string, note: string)
    requires category != "" && date != ""
    ensures Submit(Form(EXPENSE, category, Entered(0.0), note, date)).Ok?
    ensures Submit(Form(EXPENSE, category, Entered(0.0), note, date)).value.amount == 0.0
  {
  }

  /** Switching the type always forces a new category choice before the
      dialog will submit. */
  lemma TypeSwitchNeedsNewCategory(f: Form, k: string)
    ensures Submit(Apply(f, ChooseType(k))).Err?
  {
  }

  /** The dialog as it opens cannot be submitted. */
  lemma InitialFormIsRefused(today: string)
    ensures Submit(InitialForm(today)) == Err(SUBMIT_ERROR)
  {
  }
}

=== FILE: budget.dfy ===
/** The budget page: each budget's bar (percentage, colour, badge), the
    current month's spending per category, the three summary cards, the
    categories still open for a new goal, and the add and edit handlers
    with their input guards.

    The current month is a parameter (the page reads it from the clock). */
module BudgetPage {
  import opened Seqs
  import opened Entities
  import opened Grouping
  import opened FinanceStore
  import MockData

  // ---------------------------------------------------------------- one bar

  /** The bar's colour: red when over the limit, orange above 75 percent,
      green otherwise. */
  datatype Status = OnTrack | Warning | Over

  /** `Math.min((spent / limit) * 100, 100)`. */
  function Percent(spent: real, limit: real): (p: real)
    requires limit > 0.0
    ensures p <= 100.0
    ensures spent >= limit ==> p == 100.0
    ensures spent <= limit ==> p * limit == spent * 100.0
    ensures spent >= 0.0 ==> p >= 0.0
  {
    var raw := (spent / limit) * 100.0;
    if raw < 100.0 then raw else 100.0
  }

  /** `over ? red : pct > 75 ? orange : green`. */
  function Classify(spent: real, limit: real): Status
    requires limit > 0.0
  {
    if spent > limit then Over
    else if Percent(spent, limit) > 75.0 then Warning
    else OnTrack
  }

  /** The colour in terms of the amounts alone: red exactly when the
      spending exceeds the limit, green exactly when it is at most three
      quarters of it, orange in between (a spending equal to the limit is
      orange, not red). */
  lemma ClassifyThresholds(spent: real, limit: real)
    requires limit > 0.0
    ensures Classify(spent, limit) == Over <==> spent > limit
    ensures Classify(spent, limit) == OnTrack <==> 4.0 * spent <= 3.0 * limit
    ensures Classify(spent, limit) == Warning <==> 3.0 * limit < 4.0 * spent <= 4.0 * limit
  {
    RatioAboveThreeQuarters(spent, limit);
  }

  /** Below the limit the percentage is the plain ratio, and it passes 75
      exactly when the spending passes three quarters of the limit. */
  lemma RatioAboveThreeQuarters(spent: real, limit: real)
    requires limit > 0.0
    ensures spent <= limit ==> Percent(spent, limit) == (spent / limit) * 100.0
    ensures (spent / limit) * 100.0 > 75.0 <==> 4.0 * spent > 3.0 * limit
  {
    RatioThreshold(spent, limit);
    if spent <= limit {
      RatioAtMostOne(spent, limit);
    }
  }

  lemma RatioThreshold(spent: real, limit: real)
    requires limit > 0.0
    ensures (spent / limit) * 100.0 > 75.0 <==> 4.0 * spent > 3.0 * limit
  {
    var r := spent / limit;
    assert r * limit == spent;
    if r * 100.0 > 75.0 {
      assert r > 0.75;
      assert r * limit > 0.75 * limit;
    } else {
      assert r <= 0.75;
      assert r * limit <= 0.75 * limit;
    }
  }

  lemma RatioAtMostOne(spent: real, limit: real)
    requires limit > 0.0 && spent <= limit
    ensures spent / limit <= 1.0
  {
    var r := spent / limit;
    assert r * limit == spent;
    assert (r - 1.0) * limit <= 0.0;
  }

  /** The worked cases: 150 of 100 is red, 80 of 100 orange, 50 of 100
      green, 85 of 300 green at about 28 percent, and 100 of 100 orange. */
  lemma ClassifyExamples()
    ensures Classify(150.0, 100.0) == Over && Percent(150.0, 100.0) == 100.0
    ensures Classify(80.0, 100.0) == Warning && Percent(80.0, 100.0) == 80.0
    ensures Classify(50.0, 100.0) == OnTrack && Percent(50.0, 100.0) == 50.0
    ensures Classify(85.0, 300.0) == OnTrack
    ensures Classify(100.0, 100.0) == Warning
  {
    ClassifyThresholds(150.0, 100.0);
    ClassifyThresholds(80.0, 100.0);
    ClassifyThresholds(50.0, 100.0);
    ClassifyThresholds(85.0, 300.0);
    ClassifyThresholds(100.0, 100.0);
  }

  /** The badge: the amount over the limit, or the amount left. */
  datatype Badge = Overspent(excess: real) | Left(remaining: real)

  function BadgeFor(spent: real, limit: real): (b: Badge)
    ensures b.Overspent? <==> spent > limit
    ensures b.Overspent? ==> b.excess > 0.0 && limit + b.excess == spent
    ensures b.Left? ==> b.remaining >= 0.0 && spent + b.remaining == limit
  {
    if spent > limit then Overspent(spent - limit) else Left(limit - spent)
  }

  /** The badge says "over" exactly when the bar is red. */
  lemma BadgeAgreesWithColour(spent: real, limit: real)
    requires limit > 0.0
    ensures BadgeFor(spent, limit).Overspent? <==> Classify(spent, limit) == Over
  {
    ClassifyThresholds(spent, limit);
  }

  // ---------------------------------------------------------------- spending

  /** `t.type === "expense" && t.date.startsWith(thisMonth)`. */
  function ExpensesOfMonth(ts: seq<Transaction>, month: string): seq<Transaction> {
    Filter(ts, (t: Transaction) => t.kind == EXPENSE && month <= t.date)
  }

  /** When every record is dated in the month, the month filter keeps
      every expense. */
  lemma {:induction false} ExpensesOfMonthAll(ts: seq<Transaction>, month: string)
    requires forall t :: t in ts ==> month <= t.date
    ensures ExpensesOfMonth(ts, month) == Filter(ts, IsExpense)
    decreases |ts|
  {
    if ts != [] {
      assert ts[0] in ts;
      assert forall t :: t in ts[1..] ==> t in ts;
      ExpensesOfMonthAll(ts[1..], month);
    }
  }

  /** `spendingByCategory`: this month's expenses summed per category. */
  function SpendingByCategory(ts: seq<Transaction>, month: string): seq<Entry> {
    GroupByCategory(ExpensesOfMonth(ts, month))
  }

  /** `spendingByCategory[c] || 0` is the total of this month's expenses in
      category `c`. */
  lemma SpendingIsCategoryTotal(ts: seq<Transaction>, month: string, c: string)
    ensures Lookup(SpendingByCategory(ts, month), c) == Total(InCategory(ExpensesOfMonth(ts, month), c))
    ensures c in Keys(SpendingByCategory(ts, month)) <==>
              exists t :: t in ts && t.kind == EXPENSE && month <= t.date && t.category == c
  {
    GroupLookup(ExpensesOfMonth(ts, month), c);
    GroupKeys(ExpensesOfMonth(ts, month));
  }

  // ---------------------------------------------------------------- summary cards

  /** `budgets.reduce((sum, b) => sum + b.limit, 0)`. */
  function TotalBudgeted(bs: seq<Budget>): real {
    SumOf(bs, Limit)
  }

  /** `budgets.reduce((sum, b) => sum + (spendingByCategory[b.category] || 0), 0)`. */
  function TotalSpentOnBudgeted(g: seq<Entry>, bs: seq<Budget>): real
    decreases |bs|
  {
    if bs == [] then 0.0 else Lookup(g, bs[0].category) + TotalSpentOnBudgeted(g, bs[1..])
  }

  /** The budgets whose category spent more than its limit. */
  function OverBudgets(g: seq<Entry>, bs: seq<Budget>): (r: seq<Budget>)
    ensures |r| <= |bs|
    ensures IsSubseq(r, bs)
    ensures forall b :: multiset(r)[b] == if Lookup(g, b.category) > b.limit then multiset(bs)[b] else 0
    ensures forall b :: b in r <==> b in bs && Lookup(g, b.category) > b.limit
  {
    Filter(bs, (b: Budget) => Lookup(g, b.category) > b.limit)
  }

  /** `overBudgetCount`. */
  function OverBudgetCount(g: seq<Entry>, bs: seq<Budget>): nat {
    |OverBudgets(g, bs)|
  }

  /** A JavaScript number as the card shows it: a finite value, or one of
      the two infinities a division by zero gives. */
  datatype Figure = Finite(value: real) | PlusInfinity | MinusInfinity

  /** The "percent of budget used" card: `(spent / budgeted) * 100 || 0`.
      The `|| 0` turns the 0/0 of an empty budget list into zero, but a
      non-zero amount over a zero budget stays infinite. */
  function UsedPercent(spent: real, budgeted: real): (p: Figure)
    ensures budgeted != 0.0 ==> p.Finite? && p.value * budgeted == spent * 100.0
    ensures budgeted == 0.0 ==> (p.Finite? <==> spent == 0.0)
    ensures budgeted == 0.0 && spent == 0.0 ==> p == Finite(0.0)
    ensures budgeted == 0.0 && spent > 0.0 ==> p == PlusInfinity
    ensures budgeted == 0.0 && spent < 0.0 ==> p == MinusInfinity
  {
    if budgeted != 0.0 then Finite((spent / budgeted) * 100.0)
    else if spent == 0.0 then Finite(0.0)
    else if spent > 0.0 then PlusInfinity
    else MinusInfinity
  }

  /** Positive limits sum to a positive total once there is one budget. */
  lemma {:induction false} TotalBudgetedPositive(bs: seq<Budget>)
    requires PositiveLimits(bs) && bs != []
    ensures TotalBudgeted(bs) > 0.0
    decreases |bs|
  {
    assert bs[0] in bs;
    assert TotalBudgeted(bs) == bs[0].limit + TotalBudgeted(bs[1..]);
    if bs[1..] != [] {
      assert forall b :: b in bs[1..] ==> b in bs;
      TotalBudgetedPositive(bs[1..]);
    }
  }

  /** With positive limits the card always shows a finite figure: either
      there is a budget and the total budgeted is positive, or there is
      none and both sums are zero. */
  lemma UsedPercentIsFinite(g: seq<Entry>, bs: seq<Budget>)
    requires PositiveLimits(bs)
    ensures UsedPercent(TotalSpentOnBudgeted(g, bs), TotalBudgeted(bs)).Finite?
    ensures bs == [] ==> UsedPercent(TotalSpentOnBudgeted(g, bs), TotalBudgeted(bs)) == Finite(0.0)
  {
    if bs != [] {
      TotalBudgetedPositive(bs);
    }
  }

  /** The bar of a budget with a positive limit is red. */
  predicate RedBar(g: seq<Entry>, b: Budget) {
    b.limit > 0.0 && Classify(Lookup(g, b.category), b.limit) == Over
  }

  /** The "over budget" card counts exactly the red bars, and shows zero
      exactly when every bar is orange or green. */
  lemma OverBudgetCountsRedBars(g: seq<Entry>, bs: seq<Budget>)
    requires PositiveLimits(bs)
    ensures OverBudgets(g, bs) == Filter(bs, (b: Budget) => RedBar(g, b))
    ensures OverBudgetCount(g, bs) == |Filter(bs, (b: Budget) => RedBar(g, b))|
    ensures forall b :: b in OverBudgets(g, bs) <==> b in bs && RedBar(g, b)
    ensures OverBudgetCount(g, bs) == 0 <==> forall b :: b in bs ==> !RedBar(g, b)
  {
    forall b | b in bs
      ensures RedBar(g, b) <==> Lookup(g, b.category) > b.limit
    {
      ClassifyThresholds(Lookup(g, b.category), b.limit);
    }
    FilterAgree(bs, (b: Budget) => Lookup(g, b.category) > b.limit, (b: Budget) => RedBar(g, b));
    var r := OverBudgets(g, bs);
    if r != [] {
      assert r[0] in r;
    }
  }

  /** The expenses of `es` whose category has a budget. */
  function BudgetedExpenses(es: seq<Transaction>, bs: seq<Budget>): seq<Transaction> {
    Filter(es, (t: Transaction) => HasBudget(bs, t.category))
  }

  /** Per-budget sum of category totals, the shape of the page's reduce. */
  function PerBudget(bs: seq<Budget>, es: seq<Transaction>): real
    decreases |bs|
  {
    if bs == [] then 0.0 else Total(InCategory(es, bs[0].category)) + PerBudget(bs[1..], es)
  }

  lemma {:induction false} SpentOnBudgetedIsPerBudget(es: seq<Transaction>, bs: seq<Budget>)
    ensures TotalSpentOnBudgeted(GroupByCategory(es), bs) == PerBudget(bs, es)
    decreases |bs|
  {
    if bs != [] {
      GroupLookup(es, bs[0].category);
      SpentOnBudgetedIsPerBudget(es, bs[1..]);
    }
  }

  /** One more record in front adds its amount once when its category has
      a budget, and nothing otherwise. */
  lemma {:induction false} PerBudgetCons(bs: seq<Budget>, e: Transaction, es: seq<Transaction>)
    requires UniqueCategories(bs)
    ensures PerBudget(bs, [e] + es) == PerBudget(bs, es) + (if HasBudget(bs, e.category) then e.amount else 0.0)
    decreases |bs|
  {
    if bs != [] {
      var c := bs[0].category;
      InCategoryConsTotal(e, es, c);
      UniqueTail(bs);
      PerBudgetCons(bs[1..], e, es);
      if c == e.category {
        assert !HasBudget(bs[1..], c) by {
          forall b | b in bs[1..]
            ensures b.category != c
          {
            var j :| 0 <= j < |bs| - 1 && bs[1..][j] == b;
            assert bs[j + 1] == b;
          }
        }
      } else {
        assert HasBudget(bs, e.category) <==> HasBudget(bs[1..], e.category) by {
          assert bs == [bs[0]] + bs[1..];
        }
      }
    }
  }

  /** Dropping the first budget keeps the categories distinct. */
  lemma UniqueTail(bs: seq<Budget>)
    requires UniqueCategories(bs) && bs != []
    ensures UniqueCategories(bs[1..])
  {
    forall i, j | 0 <= i < j < |bs| - 1
      ensures bs[1..][i].category != bs[1..][j].category
    {
      assert bs[i + 1].category != bs[j + 1].category;
    }
  }

  lemma BudgetedExpensesCons(e: Transaction, es: seq<Transaction>, bs: seq<Budget>)
    ensures Total(BudgetedExpenses([e] + es, bs))
         == (if HasBudget(bs, e.category) then e.amount else 0.0) + Total(BudgetedExpenses(es, bs))
  {
    assert ([e] + es)[1..] == es;
    var rest := BudgetedExpenses(es, bs);
    if HasBudget(bs, e.category) {
      assert BudgetedExpenses([e] + es, bs) == [e] + rest;
      assert ([e] + rest)[1..] == rest;
    } else {
      assert BudgetedExpenses([e] + es, bs) == rest;
    }
  }

  /** With one budget per category, the per-budget sum counts each record
      of a budgeted category exactly once. */
  lemma {:induction false} PerBudgetIsBudgetedTotal(bs: seq<Budget>, es: seq<Transaction>)
    requires UniqueCategories(bs)
    ensures PerBudget(bs, es) == Total(BudgetedExpenses(es, bs))
    decreases |es|
  {
    if es == [] {
      PerBudgetEmpty(bs);
    } else {
      var e, tail := es[0], es[1..];
      assert es == [e] + tail;
      PerBudgetCons(bs, e, tail);
      PerBudgetIsBudgetedTotal(bs, tail);
      BudgetedExpensesCons(e, tail, bs);
    }
  }

  lemma {:induction false} PerBudgetEmpty(bs: seq<Budget>)
    ensures PerBudget(bs, []) == 0.0
    decreases |bs|
  {
    if bs != [] {
      PerBudgetEmpty(bs[1..]);
    }
  }

  /** "Spent on budgeted" is the month's spending in the budgeted
      categories, each record counted once, as long as no category has two
      budgets. */
  lemma SpentOnBudgetedCountsOnce(ts: seq<Transaction>, month: string, bs: seq<Budget>)
    requires UniqueCategories(bs)
    ensures TotalSpentOnBudgeted(SpendingByCategory(ts, month), bs)
         == Total(BudgetedExpenses(ExpensesOfMonth(ts, month), bs))
  {
    SpentOnBudgetedIsPerBudget(ExpensesOfMonth(ts, month), bs);
    PerBudgetIsBudgetedTotal(bs, ExpensesOfMonth(ts, month));
  }

  /** Changing one budget's limit moves "total budgeted" by the
      difference; adding a new category adds its limit. */
  lemma TotalBudgetedAfterUpsert(bs: seq<Budget>, c: string, limit: real)
    requires UniqueCategories(bs)
    ensures !HasBudget(bs, c) ==> TotalBudgeted(UpsertBudget(bs, c, limit)) == TotalBudgeted(bs) + limit
    ensures HasBudget(bs, c) ==>
              && c in LimitsByCategory(bs)
              && TotalBudgeted(UpsertBudget(bs, c, limit)) == TotalBudgeted(bs) - LimitsByCategory(bs)[c] + limit
  {
    var r := UpsertBudget(bs, c, limit);
    if HasBudget(bs, c) {
      LimitsByCategoryKeys(bs);
      ReplaceOneLimit(bs, r, c, limit);
    } else {
      assert r == bs + [Budget(c, limit)];
      SumOfAppend(bs, [Budget(c, limit)], Limit);
      assert [Budget(c, limit)][1..] == [];
    }
  }

  /** Replacing the limit of the one budget for `c`. */
  lemma {:induction false} ReplaceOneLimit(bs: seq<Budget>, r: seq<Budget>, c: string, limit: real)
    requires UniqueCategories(bs) && HasBudget(bs, c) && |r| == |bs|
    requires forall i :: 0 <= i < |bs| ==>
               r[i].category == bs[i].category &&
               r[i].limit == (if bs[i].category == c then limit else bs[i].limit)
    ensures c in LimitsByCategory(bs)
    ensures SumOf(r, Limit) == SumOf(bs, Limit) - LimitsByCategory(bs)[c] + limit
    decreases |bs|
  {
    LimitsByCategoryKeys(bs);
    if bs[0].category == c {
      forall i | 0 <= i < |bs| - 1
        ensures r[1..][i] == bs[1..][i]
      {
        assert bs[i + 1].category != c;
      }
      assert r[1..] == bs[1..];
    } else {
      var b :| b in bs && b.category == c;
      assert b in bs[1..];
      UniqueTail(bs);
      ReplaceOneLimit(bs[1..], r[1..], c, limit);
      assert r[0] == bs[0];
    }
  }

  // ---------------------------------------------------------------- add and edit

  /** Every budget limit is a positive number. */
  predicate PositiveLimits(bs: seq<Budget>) {
    forall b :: b in bs ==> b.limit > 0.0
  }

  const ADD_ERROR: string := "Please select a category and enter a valid limit."

  /** The expense categories that have no budget yet, in vocabulary order:
      the choices of the "Add Goal" form. */
  function AvailableCategories(bs: seq<Budget>): (r: seq<string>)
    ensures IsSubseq(r, MockData.EXPENSE_CATEGORIES)
    ensures forall c :: c in r <==> c in MockData.EXPENSE_CATEGORIES && !HasBudget(bs, c)
  {
    Filter(MockData.EXPENSE_CATEGORIES, (c: string) => !HasBudget(bs, c))
  }

  /** `handleAdd`: refused, with the form's message, when no category is
      chosen, the limit is empty or the limit is not positive; otherwise
      the budget is upserted into the list, so an existing goal keeps its
      place and a new one goes last. */
  function HandleAdd(bs: seq<Budget>, category: string, limit: NumberInput): (r: Result<seq<Budget>>)
    ensures r.Err? <==> category == "" || limit.Blank? || limit.value <= 0.0
    ensures r.Err? ==> r.message == ADD_ERROR
    ensures r.Ok? ==> r.value == UpsertBudget(bs, category, limit.value)
    ensures r.Ok? ==> LimitsByCategory(r.value) == LimitsByCategory(bs)[category := limit.value]
    ensures r.Ok? ==> category !in AvailableCategories(r.value)
  {
    if category == "" || limit.Blank? || limit.value <= 0.0 then Err(ADD_ERROR)
    else
      var r := UpsertBudget(bs, category, limit.value);
      UpsertIsMapUpdate(bs, category, limit.value);
      LimitsByCategoryKeys(r);
      Ok(r)
  }

  /** `handleUpdate`: an empty or non-positive limit leaves the budgets as
      they were; otherwise the category's limit is replaced where it
      stands. */
  function HandleUpdate(bs: seq<Budget>, category: string, limit: NumberInput): (r: seq<Budget>)
    ensures (limit.Blank? || limit.value <= 0.0) ==> r == bs
    ensures limit.Entered? && limit.value > 0.0 ==> r == UpsertBudget(bs, category, limit.value)
    ensures limit.Entered? && limit.value > 0.0 ==>
              LimitsByCategory(r) == LimitsByCategory(bs)[category := limit.value]
    ensures limit.Entered? && limit.value > 0.0 && HasBudget(bs, category) ==>
              |r| == |bs| && forall i :: 0 <= i < |bs| ==>
                r[i] == if bs[i].category == category then Budget(category, limit.value) else bs[i]
  {
    if limit.Blank? || limit.value <= 0.0 then bs
    else
      UpsertIsMapUpdate(bs, category, limit.value);
      UpsertBudget(bs, category, limit.value)
  }

  /** No sequence of adds, edits and removals can introduce a limit that is
      not positive, so every bar's percentage is well defined. */
  lemma HandlersKeepLimitsPositive(bs: seq<Budget>, c: string, limit: NumberInput)
    requires PositiveLimits(bs)
    ensures HandleAdd(bs, c, limit).Ok? ==> PositiveLimits(HandleAdd(bs, c, limit).value)
    ensures PositiveLimits(HandleUpdate(bs, c, limit))
    ensures PositiveLimits(DeleteBudget(bs, c))
  {
    if limit.Entered? && limit.value > 0.0 {
      var r := UpsertBudget(bs, c, limit.value);
      forall b | b in r
        ensures b.limit > 0.0
      {
        var i :| 0 <= i < |r| && r[i] == b;
        if HasBudget(bs, c) {
          assert bs[i] in bs;
        } else if i < |bs| {
          assert r[i] == bs[i];
        }
      }
    }
  }

  /** Adds, edits and removals keep at most one budget per category. */
  lemma HandlersKeepCategoriesUnique(bs: seq<Budget>, c: string, limit: NumberInput)
    requires UniqueCategories(bs)
    ensures HandleAdd(bs, c, limit).Ok? ==> UniqueCategories(HandleAdd(bs, c, limit).value)
    ensures UniqueCategories(HandleUpdate(bs, c, limit))
    ensures UniqueCategories(DeleteBudget(bs, c))
  {
    if limit.Entered? && limit.value > 0.0 {
      UpsertKeepsCategoriesUnique(bs, c, limit.value);
    }
    DeleteBudgetKeepsCategoriesUnique(bs, c);
  }

  /** With one budget per category, each budget's limit is the one the
      category maps to. */
  lemma {:induction false} LimitOfMember(bs: seq<Budget>, b: Budget)
    requires UniqueCategories(bs) && b in bs
    ensures b.category in LimitsByCategory(bs) && LimitsByCategory(bs)[b.category] == b.limit
    decreases |bs|
  {
    if bs[0] != b {
      assert b in bs[1..];
      UniqueTail(bs);
      LimitOfMember(bs[1..], b);
      var i :| 0 <= i < |bs| && bs[i] == b;
      assert i > 0;
      assert bs[0].category != bs[i].category;
    }
  }

  /** "Edit limit" fills the field with the current limit; saving it
      unchanged leaves the budget list, and so every category's limit, as
      it was. */
  lemma SaveUnchangedEdit(bs: seq<Budget>, b: Budget)
    requires UniqueCategories(bs) && b in bs && b.limit > 0.0
    ensures HandleUpdate(bs, b.category, Entered(b.limit)) == bs
    ensures LimitsByCategory(HandleUpdate(bs, b.category, Entered(b.limit))) == LimitsByCategory(bs)
  {
    var r := HandleUpdate(bs, b.category, Entered(b.limit));
    var j :| 0 <= j < |bs| && bs[j] == b;
    assert HasBudget(bs, b.category);
    forall i | 0 <= i < |bs|
      ensures r[i] == bs[i]
    {
      if bs[i].category == b.category {
        assert i == j;
      }
    }
  }

  /** Removing a goal makes its expense category available again. */
  lemma RemoveFreesCategory(bs: seq<Budget>, c: string)
    requires c in MockData.EXPENSE_CATEGORIES
    ensures c in AvailableCategories(DeleteBudget(bs, c))
  {
  }
}

=== FILE: dashboard.dfy ===
/** The overview page: the expense breakdown behind the pie chart, the
    per-month income and expense series behind the area chart, and the
    five most recent records. The stat cards show the store's totals
    unchanged. */
module Dashboard {
  import opened Seqs
  import opened Strings
  import opened Sorting
  import opened Entities
  import opened Grouping
  import FinanceStore
  import TransactionQuery

  // ---------------------------------------------------------------- pie chart

  /** Expense records summed per category, in order of first appearance. */
  function ExpenseByCategory(ts: seq<Transaction>): seq<Entry> {
    GroupByCategory(Filter(ts, IsExpense))
  }

  /** A slice exists exactly for the categories that have an expense, each
      once; its size is that category's expense total, and the slices add
      up to the total expenses of the overview card. */
  lemma ExpenseBreakdown(ts: seq<Transaction>, c: string)
    ensures c in Keys(ExpenseByCategory(ts)) <==> exists t :: t in ts && IsExpense(t) && t.category == c
    ensures NoDuplicates(Keys(ExpenseByCategory(ts)))
    ensures Lookup(ExpenseByCategory(ts), c) == Total(InCategory(Filter(ts, IsExpense), c))
    ensures SumEntries(ExpenseByCategory(ts)) == FinanceStore.TotalExpenses(ts)
  {
    var es := Filter(ts, IsExpense);
    GroupKeys(es);
    GroupLookup(es, c);
    GroupSum(es);
  }

  // ---------------------------------------------------------------- area chart

  /** One value of the `monthlyData` object. */
  datatype MonthRow = MonthRow(month: string, income: real, expenses: real)

  function RowMonth(r: MonthRow): string { r.month }
  function RowIncome(r: MonthRow): real { r.income }
  function RowExpenses(r: MonthRow): real { r.expenses }

  function RowMonths(rows: seq<MonthRow>): (ms: seq<string>)
    ensures |ms| == |rows|
    ensures forall i :: 0 <= i < |rows| ==> ms[i] == rows[i].month
    decreases |rows|
  {
    if rows == [] then [] else [rows[0].month] + RowMonths(rows[1..])
  }

  /** The row stored for month `m`, or an empty one when there is none. */
  function RowFor(rows: seq<MonthRow>, m: string): MonthRow
    decreases |rows|
  {
    if rows == [] then MonthRow(m, 0.0, 0.0)
    else if rows[0].month == m then rows[0]
    else RowFor(rows[1..], m)
  }

  /** How much one record adds to the income and expense columns. */
  function IncomePart(t: Transaction): real { if IsIncome(t) then t.amount else 0.0 }
  function ExpensePart(t: Transaction): real { if IsIncome(t) then 0.0 else t.amount }

  /** One step of the `reduce`: create the month's row if it is missing,
      then add the amount to income for an income record and to expenses
      for any other. */
  function AddToMonth(rows: seq<MonthRow>, t: Transaction): (r: seq<MonthRow>)
    ensures var m := MonthOf(t.date);
      RowMonths(r) == if m in RowMonths(rows) then RowMonths(rows) else RowMonths(rows) + [m]
    ensures RowFor(r, MonthOf(t.date)).income == RowFor(rows, MonthOf(t.date)).income + IncomePart(t)
    ensures RowFor(r, MonthOf(t.date)).expenses == RowFor(rows, MonthOf(t.date)).expenses + ExpensePart(t)
    ensures forall m :: m != MonthOf(t.date) ==> RowFor(r, m) == RowFor(rows, m)
    ensures SumOf(r, RowIncome) == SumOf(rows, RowIncome) + IncomePart(t)
    ensures SumOf(r, RowExpenses) == SumOf(rows, RowExpenses) + ExpensePart(t)
    decreases |rows|
  {
    var m := MonthOf(t.date);
    if rows == [] then
      var r := [MonthRow(m, IncomePart(t), ExpensePart(t))];
      assert r[1..] == [];
      r
    else if rows[0].month == m then
      var row := rows[0].(income := rows[0].income + IncomePart(t), expenses := rows[0].expenses + ExpensePart(t));
      assert ([row] + rows[1..])[1..] == rows[1..];
      [row] + rows[1..]
    else
      var rest := AddToMonth(rows[1..], t);
      assert ([rows[0]] + rest)[1..] == rest;
      [rows[0]] + rest
  }

  /** The whole `monthlyData` reduce, folding the records first to last. */
  function MonthlyData(ts: seq<Transaction>): seq<MonthRow>
    decreases |ts|
  {
    if ts == [] then [] else AddToMonth(MonthlyData(ts[..|ts| - 1]), ts[|ts| - 1])
  }

  /** Income of the records dated in month `m`. */
  function IncomeIn(ts: seq<Transaction>, m: string): real {
    Total(Filter(InMonth(ts, m), IsIncome))
  }

  /** Non-income amounts of the records dated in month `m`. */
  function ExpensesIn(ts: seq<Transaction>, m: string): real {
    Total(Filter(InMonth(ts, m), IsNotIncome))
  }

  /** Dropping the last record takes its amount off its own month. */
  lemma MonthTotalsDropLast(ts: seq<Transaction>, m: string)
    requires ts != []
    ensures var init, last := ts[..|ts| - 1], ts[|ts| - 1];
      && IncomeIn(ts, m) == IncomeIn(init, m) + (if MonthOf(last.date) == m then IncomePart(last) else 0.0)
      && ExpensesIn(ts, m) == ExpensesIn(init, m) + (if MonthOf(last.date) == m then ExpensePart(last) else 0.0)
  {
    var init, last := ts[..|ts| - 1], ts[|ts| - 1];
    assert ts == init + [last];
    var a, b := InMonth(init, m), InMonth([last], m);
    InMonthAppend(init, [last], m);
    InMonthOne(last, m);
    FilterAppend(a, b, IsIncome);
    FilterAppend(a, b, IsNotIncome);
    TotalAppend(Filter(a, IsIncome), Filter(b, IsIncome));
    TotalAppend(Filter(a, IsNotIncome), Filter(b, IsNotIncome));
    assert [last][1..] == [];
    TotalOne(last);
  }

  /** Dropping the last record takes its amount off one of the totals. */
  lemma TotalsDropLast(ts: seq<Transaction>)
    requires ts != []
    ensures var init, last := ts[..|ts| - 1], ts[|ts| - 1];
      && FinanceStore.TotalIncome(ts) == FinanceStore.TotalIncome(init) + IncomePart(last)
      && Total(Filter(ts, IsNotIncome)) == Total(Filter(init, IsNotIncome)) + ExpensePart(last)
  {
    var init, last := ts[..|ts| - 1], ts[|ts| - 1];
    assert ts == init + [last];
    FilterAppend(init, [last], IsIncome);
    FilterAppend(init, [last], IsNotIncome);
    assert [last][1..] == [];
    TotalAppend(Filter(init, IsIncome), Filter([last], IsIncome));
    TotalAppend(Filter(init, IsNotIncome), Filter([last], IsNotIncome));
    TotalOne(last);
  }

  /** What one fold step does to the row of an arbitrary month. */
  lemma RowForAfterAdd(rows: seq<MonthRow>, t: Transaction, m: string)
    ensures RowFor(AddToMonth(rows, t), m).income == RowFor(rows, m).income + (if MonthOf(t.date) == m then IncomePart(t) else 0.0)
    ensures RowFor(AddToMonth(rows, t), m).expenses == RowFor(rows, m).expenses + (if MonthOf(t.date) == m then ExpensePart(t) else 0.0)
  {
  }

  /** The months of the rows are the distinct months of the records, in
      order of first appearance. */
  lemma {:induction false} MonthlyDataMonths(ts: seq<Transaction>)
    ensures RowMonths(MonthlyData(ts)) == Dedup(TransactionQuery.MonthsOf(ts))
    decreases |ts|
  {
    if ts != [] {
      MonthlyDataMonths(ts[..|ts| - 1]);
      assert TransactionQuery.MonthsOf(ts)[..|ts| - 1] == TransactionQuery.MonthsOf(ts[..|ts| - 1]);
    }
  }

  /** Each month's row holds that month's income and that month's other
      amounts. */
  lemma {:induction false} MonthlyDataValues(ts: seq<Transaction>, m: string)
    ensures RowFor(MonthlyData(ts), m).income == IncomeIn(ts, m)
    ensures RowFor(MonthlyData(ts), m).expenses == ExpensesIn(ts, m)
    decreases |ts|
  {
    if ts != [] {
      var init := ts[..|ts| - 1];
      MonthlyDataValues(init, m);
      RowForAfterAdd(MonthlyData(init), ts[|ts| - 1], m);
      MonthTotalsDropLast(ts, m);
    }
  }

  /** The income column adds up to the total income, and the expense column
      to everything else. */
  lemma {:induction false} MonthlyDataSums(ts: seq<Transaction>)
    ensures SumOf(MonthlyData(ts), RowIncome) == FinanceStore.TotalIncome(ts)
    ensures SumOf(MonthlyData(ts), RowExpenses) == Total(Filter(ts, IsNotIncome))
    decreases |ts|
  {
    if ts != [] {
      MonthlyDataSums(ts[..|ts| - 1]);
      TotalsDropLast(ts);
    }
  }

  /** `Object.values(monthlyData).sort(...)` by month. Month strings are all
      `YYYY-MM`, for which `localeCompare` and code-unit order agree. */
  function MonthlySeries(ts: seq<Transaction>): (r: seq<MonthRow>)
    ensures multiset(r) == multiset(MonthlyData(ts))
  {
    SortBy(MonthlyData(ts), RowMonth, Ascending)
  }

  /** The series is in strictly ascending month order. */
  lemma MonthlySeriesAscending(ts: seq<Transaction>)
    ensures forall i, j :: 0 <= i < j < |MonthlySeries(ts)| ==> LexLess(MonthlySeries(ts)[i].month, MonthlySeries(ts)[j].month)
  {
    var rows := MonthlyData(ts);
    MonthlyDataMonths(ts);
    assert UniqueKeys(rows, RowMonth);
    SortKeepsUniqueKeys(rows, RowMonth, Ascending);
    SortedUniqueIsStrict(MonthlySeries(ts), RowMonth, Ascending);
  }

  /** Rearranging rows keeps the set of months they carry. */
  lemma RowMonthsOfPermutation(a: seq<MonthRow>, b: seq<MonthRow>, m: string)
    requires multiset(a) == multiset(b)
    ensures m in RowMonths(a) ==> m in RowMonths(b)
  {
    if m in RowMonths(a) {
      var k :| 0 <= k < |a| && RowMonths(a)[k] == m;
      assert a[k] in multiset(b);
      var i :| 0 <= i < |b| && b[i] == a[k];
      assert RowMonths(b)[i] == m;
    }
  }

  /** The series has a row for exactly the months some record falls in. */
  lemma MonthlySeriesMonths(ts: seq<Transaction>, m: string)
    ensures m in RowMonths(MonthlySeries(ts)) <==> exists t :: t in ts && MonthOf(t.date) == m
  {
    var rows := MonthlyData(ts);
    var s := MonthlySeries(ts);
    MonthlyDataMonths(ts);
    TransactionQuery.MonthsOfMembers(ts, m);
    RowMonthsOfPermutation(s, rows, m);
    RowMonthsOfPermutation(rows, s, m);
  }

  /** Each row of the series carries its month's figures. */
  lemma MonthlySeriesValues(ts: seq<Transaction>, r: MonthRow)
    requires r in MonthlySeries(ts)
    ensures r.income == IncomeIn(ts, r.month) && r.expenses == ExpensesIn(ts, r.month)
  {
    var rows := MonthlyData(ts);
    assert r in multiset(rows);
    MonthlyDataMonths(ts);
    var i :| 0 <= i < |rows| && rows[i] == r;
    RowForUnique(rows, i);
    MonthlyDataValues(ts, r.month);
  }

  /** With months all distinct, `RowFor` finds the row at its position. */
  lemma {:induction false} RowForUnique(rows: seq<MonthRow>, i: nat)
    requires i < |rows| && NoDuplicates(RowMonths(rows))
    ensures RowFor(rows, rows[i].month) == rows[i]
    decreases |rows|
  {
    if i > 0 {
      assert RowMonths(rows)[0] != RowMonths(rows)[i];
      assert NoDuplicates(RowMonths(rows[1..])) by {
        forall a, b | 0 <= a < b < |rows| - 1
          ensures RowMonths(rows[1..])[a] != RowMonths(rows[1..])[b]
        {
          assert RowMonths(rows)[a + 1] != RowMonths(rows)[b + 1];
        }
      }
      RowForUnique(rows[1..], i - 1);
    }
  }

  /** The chart's columns add up to the overview cards' totals when every
      record is typed income or expense. */
  lemma MonthlySeriesSums(ts: seq<Transaction>)
    requires KnownKinds(ts)
    ensures SumOf(MonthlySeries(ts), RowIncome) == FinanceStore.TotalIncome(ts)
    ensures SumOf(MonthlySeries(ts), RowExpenses) == FinanceStore.TotalExpenses(ts)
  {
    MonthlyDataSums(ts);
    SumOfPermutation(MonthlySeries(ts), MonthlyData(ts), RowIncome);
    SumOfPermutation(MonthlySeries(ts), MonthlyData(ts), RowExpenses);
    NotIncomeIsExpense(ts);
  }

  /** A ledger whose records all fall in one month charts a single point:
      that month, at the ledger's income and expense totals. */
  lemma OneMonthSeries(ts: seq<Transaction>, m: string)
    requires ts != [] && KnownKinds(ts)
    requires forall t :: t in ts ==> MonthOf(t.date) == m
    ensures MonthlySeries(ts) == [MonthRow(m, FinanceStore.TotalIncome(ts), FinanceStore.TotalExpenses(ts))]
  {
    var s := MonthlySeries(ts);
    MonthlySeriesMonths(ts, m);
    MonthlySeriesSums(ts);
    assert ts[0] in ts;
    assert m in RowMonths(s);
    forall i | 0 <= i < |s|
      ensures s[i].month == m
    {
      MonthlySeriesMonths(ts, s[i].month);
    }
    MonthlySeriesAscending(ts);
    if |s| > 1 {
      LexLessIrreflexive(m);
      assert false;
    }
    assert s == [s[0]];
    assert SumOf(s, RowIncome) == s[0].income + SumOf(s[1..], RowIncome);
    assert SumOf(s, RowExpenses) == s[0].expenses + SumOf(s[1..], RowExpenses);
  }

  // ---------------------------------------------------------------- recent list

  const RECENT_COUNT: nat := 5

  /** `[...transactions].slice(0, 5)`: the first five stored records. */
  function Recent(ts: seq<Transaction>): (r: seq<Transaction>)
    ensures |r| == if |ts| < RECENT_COUNT then |ts| else RECENT_COUNT
    ensures r <= ts
  {
    if |ts| < RECENT_COUNT then ts else ts[..RECENT_COUNT]
  }

  /** A record just added heads the recent list, followed by the four
      that were first before. */
  lemma RecentAfterAdd(ts: seq<Transaction>, d: FinanceStore.Draft, id: int)
    ensures Recent(FinanceStore.AddTransaction(ts, d, id))
         == [FinanceStore.WithId(d, id)] + Recent(ts)[..if |ts| < RECENT_COUNT - 1 then |ts| else RECENT_COUNT - 1]
  {
    var r := FinanceStore.AddTransaction(ts, d, id);
    assert r == [FinanceStore.WithId(d, id)] + ts;
  }
}

=== FILE: entities.dfy ===
/** The records the application stores: transactions and budgets, with the
    field readers and selections that every page shares.

    Amounts and limits are exact reals; JavaScript's floating-point numbers
    are not modelled. A transaction's `type` is kept as the string the
    record carries, so that "every type is income or expense" stays a
    hypothesis the lemmas can name. Dates are `YYYY-MM-DD` strings. */
module Entities {
  import opened Seqs

  const INCOME: string := "income"
  const EXPENSE: string := "expense"

  /** A stored transaction; `kind` is the record's `type` field and `note`
      may be missing. */
  datatype Transaction = Transaction(
    id: int,
    kind: string,
    category: string,
    amount: real,
    note: Option<string>,
    date: string)

  datatype Budget = Budget(category: string, limit: real)

  /** The contents of an `<input type="number">` field: empty, or the
      number `Number(...)` reads from it. */
  datatype NumberInput = Blank | Entered(value: real)

  function Amount(t: Transaction): real { t.amount }
  function Limit(b: Budget): real { b.limit }

  predicate IsIncome(t: Transaction) { t.kind == INCOME }
  predicate IsExpense(t: Transaction) { t.kind == EXPENSE }
  /** The `else` branch of the pages that split on `type === "income"`. */
  predicate IsNotIncome(t: Transaction) { t.kind != INCOME }

  /** Every record is typed income or expense. */
  predicate KnownKinds(ts: seq<Transaction>) {
    forall t :: t in ts ==> t.kind == INCOME || t.kind == EXPENSE
  }

  /** Sum of the amounts of `ts`. */
  function Total(ts: seq<Transaction>): real {
    SumOf(ts, Amount)
  }

  /** `date.slice(0, 7)`: the `YYYY-MM` part of a date. */
  function MonthOf(date: string): (m: string)
    ensures m <= date
    ensures |date| >= 7 ==> |m| == 7
  {
    if |date| >= 7 then date[..7] else date
  }

  /** The transactions of category `c`, in order. */
  function InCategory(ts: seq<Transaction>, c: string): seq<Transaction> {
    Filter(ts, (t: Transaction) => t.category == c)
  }

  /** The transactions whose `YYYY-MM` part is `m`, in order. */
  function InMonth(ts: seq<Transaction>, m: string): seq<Transaction> {
    Filter(ts, (t: Transaction) => MonthOf(t.date) == m)
  }

  lemma InCategoryAppend(a: seq<Transaction>, b: seq<Transaction>, c: string)
    ensures InCategory(a + b, c) == InCategory(a, c) + InCategory(b, c)
  {
    FilterAppend(a, b, (t: Transaction) => t.category == c);
  }

  lemma InMonthAppend(a: seq<Transaction>, b: seq<Transaction>, m: string)
    ensures InMonth(a + b, m) == InMonth(a, m) + InMonth(b, m)
  {
    FilterAppend(a, b, (t: Transaction) => MonthOf(t.date) == m);
  }

  lemma InMonthOne(t: Transaction, m: string)
    ensures InMonth([t], m) == if MonthOf(t.date) == m then [t] else []
  {
    assert [t][1..] == [];
  }

  /** The total of one record's own category selection. */
  lemma InCategoryOne(t: Transaction, c: string)
    ensures Total(InCategory([t], c)) == if t.category == c then t.amount else 0.0
  {
    assert [t][1..] == [];
    assert InCategory([t], c) == if t.category == c then [t] else [];
    TotalOne(t);
  }

  /** A record in front adds its amount to its own category's total. */
  lemma InCategoryConsTotal(t: Transaction, ts: seq<Transaction>, c: string)
    ensures Total(InCategory([t] + ts, c)) == (if t.category == c then t.amount else 0.0) + Total(InCategory(ts, c))
  {
    InCategoryAppend([t], ts, c);
    TotalAppend(InCategory([t], c), InCategory(ts, c));
    InCategoryOne(t, c);
  }

  lemma TotalOne(t: Transaction)
    ensures Total([t]) == t.amount
  {
    assert [t][1..] == [];
    assert SumOf([t], Amount) == Amount(t) + SumOf([], Amount);
  }

  /** Summing a filtered selection from position `k` on, one record at a
      time. */
  lemma TotalFilterFrom(ts: seq<Transaction>, p: Transaction -> bool, k: nat)
    requires k < |ts|
    ensures Total(Filter(ts[k..], p)) == (if p(ts[k]) then ts[k].amount else 0.0) + Total(Filter(ts[k + 1..], p))
  {
    FilterFrom(ts, p, k);
    var rest := Filter(ts[k + 1..], p);
    if p(ts[k]) {
      assert ([ts[k]] + rest)[1..] == rest;
    } else {
      assert [] + rest == rest;
    }
  }

  /** Splitting off the income records leaves the rest. */
  lemma {:induction false} TotalSplitsOnIncome(ts: seq<Transaction>)
    ensures Total(Filter(ts, IsIncome)) + Total(Filter(ts, IsNotIncome)) == Total(ts)
    decreases |ts|
  {
    if ts != [] {
      TotalSplitsOnIncome(ts[1..]);
    }
  }

  /** Among records typed income or expense, the non-income ones are the
      expense ones. */
  lemma NotIncomeIsExpense(ts: seq<Transaction>)
    requires KnownKinds(ts)
    ensures Filter(ts, IsNotIncome) == Filter(ts, IsExpense)
    decreases |ts|
  {
    if ts != [] {
      NotIncomeIsExpense(ts[1..]);
    }
  }

  lemma {:induction false} TotalNonNegative(ts: seq<Transaction>)
    requires forall t :: t in ts ==> t.amount >= 0.0
    ensures Total(ts) >= 0.0
    decreases |ts|
  {
    if ts != [] {
      TotalNonNegative(ts[1..]);
    }
  }

  lemma TotalAppend(a: seq<Transaction>, b: seq<Transaction>)
    ensures Total(a + b) == Total(a) + Total(b)
  {
    SumOfAppend(a, b, Amount);
  }

  /** Totals do not depend on the order of the records. */
  lemma TotalPermutation(a: seq<Transaction>, b: seq<Transaction>)
    requires multiset(a) == multiset(b)
    ensures Total(a) == Total(b)
  {
    SumOfPermutation(a, b, Amount);
  }
}

=== FILE: finance_context.dfy ===
/** The ledger store: the four mutations the provider exposes, each as a
    function from the old collection to the new one, and the derived
    totals it recomputes on every render.

    The id of a new transaction is `Date.now()` in the application; here
    it is a parameter. Saving to browser storage is not modelled. */
module FinanceStore {
  import opened Seqs
  import opened Entities

  /** What `addTransaction` receives: a transaction without its id. */
  datatype Draft = Draft(kind: string, category: string, amount: real, note: Option<string>, date: string)

  function WithId(d: Draft, id: int): Transaction {
    Transaction(id, d.kind, d.category, d.amount, d.note, d.date)
  }

  predicate FreshId(ts: seq<Transaction>, id: int) {
    forall t :: t in ts ==> t.id != id
  }

  predicate UniqueIds(ts: seq<Transaction>) {
    forall i, j :: 0 <= i < j < |ts| ==> ts[i].id != ts[j].id
  }

  // ---------------------------------------------------------------- transactions

  /** `addTransaction`: the draft, stamped with `id`, goes in front. */
  function AddTransaction(ts: seq<Transaction>, d: Draft, id: int): (r: seq<Transaction>)
    ensures |r| == |ts| + 1
    ensures r[0].id == id && r[0].kind == d.kind && r[0].category == d.category
    ensures r[0].amount == d.amount && r[0].note == d.note && r[0].date == d.date
    ensures r[1..] == ts
  {
    [WithId(d, id)] + ts
  }

  /** `deleteTransaction`: every record carrying `id` goes, the rest keep
      their order. */
  function DeleteTransaction(ts: seq<Transaction>, id: int): (r: seq<Transaction>)
    ensures IsSubseq(r, ts)
    ensures forall t :: multiset(r)[t] == if t.id != id then multiset(ts)[t] else 0
    ensures FreshId(r, id)
  {
    Filter(ts, (t: Transaction) => t.id != id)
  }

  /** Deleting an id nobody carries changes nothing. */
  lemma DeleteAbsentId(ts: seq<Transaction>, id: int)
    requires FreshId(ts, id)
    ensures DeleteTransaction(ts, id) == ts
  {
    FilterKeepsAll(ts, (t: Transaction) => t.id != id);
  }

  lemma DeleteTransactionIdempotent(ts: seq<Transaction>, id: int)
    ensures DeleteTransaction(DeleteTransaction(ts, id), id) == DeleteTransaction(ts, id)
  {
    DeleteAbsentId(DeleteTransaction(ts, id), id);
  }

  /** Adding under a fresh id and deleting that id gives the old ledger
      back; the new record is the only one the delete removes. */
  lemma DeleteUndoesAdd(ts: seq<Transaction>, d: Draft, id: int)
    requires FreshId(ts, id)
    ensures DeleteTransaction(AddTransaction(ts, d, id), id) == ts
  {
    var r := AddTransaction(ts, d, id);
    assert r == [WithId(d, id)] + ts;
    FilterAppend([WithId(d, id)], ts, (t: Transaction) => t.id != id);
    DeleteAbsentId(ts, id);
  }

  lemma AddKeepsIdsUnique(ts: seq<Transaction>, d: Draft, id: int)
    requires FreshId(ts, id)
    ensures UniqueIds(ts) ==> UniqueIds(AddTransaction(ts, d, id))
  {
    var r := AddTransaction(ts, d, id);
    if UniqueIds(ts) {
      forall i, j | 0 <= i < j < |r|
        ensures r[i].id != r[j].id
      {
        if i == 0 {
          assert r[j] == ts[j - 1];
        } else {
          assert r[i] == ts[i - 1] && r[j] == ts[j - 1];
        }
      }
    }
  }

  /** When two additions read the same clock value, deleting either one
      deletes both: the ledger loses a record the user did not remove. */
  lemma SameClockAddsCollide(d1: Draft, d2: Draft, now: int)
    ensures AddTransaction(AddTransaction([], d1, now), d2, now) == [WithId(d2, now), WithId(d1, now)]
    ensures DeleteTransaction(AddTransaction(AddTransaction([], d1, now), d2, now), now) == []
  {
    var r := AddTransaction(AddTransaction([], d1, now), d2, now);
    FilterDropsAll(r, (t: Transaction) => t.id != now);
  }

  /** The largest id in use, or 0 for an empty ledger. */
  function MaxId(ts: seq<Transaction>): (m: int)
    ensures forall t :: t in ts ==> t.id <= m
    ensures ts != [] ==> exists t :: t in ts && t.id == m
    decreases |ts|
  {
    if ts == [] then 0
    else
      var rest := MaxId(ts[1..]);
      assert forall t :: t in ts ==> t == ts[0] || t in ts[1..];
      if ts[1..] == [] || ts[0].id > rest then ts[0].id else rest
  }

  /** A clock reading that never repeats an id: the reading itself when it
      is past every id in use (or there is none), otherwise one past the
      largest. */
  function NextId(ts: seq<Transaction>, now: int): (id: int)
    ensures FreshId(ts, id)
    ensures id >= now
    ensures forall t :: t in ts ==> t.id < id
    ensures (forall t :: t in ts ==> t.id < now) ==> id == now
  {
    if ts == [] || now > MaxId(ts) then now else MaxId(ts) + 1
  }

  /** `addTransaction` with the id drawn by `NextId`. */
  function AddWithNextId(ts: seq<Transaction>, d: Draft, now: int): (r: seq<Transaction>)
    ensures |r| == |ts| + 1 && r[1..] == ts
    ensures r[0] == WithId(d, r[0].id) && FreshId(ts, r[0].id)
    ensures UniqueIds(ts) ==> UniqueIds(r)
    ensures DeleteTransaction(r, r[0].id) == ts
    ensures (forall t :: t in ts ==> t.id < now) ==> r[0].id == now
  {
    var id := NextId(ts, now);
    AddKeepsIdsUnique(ts, d, id);
    DeleteUndoesAdd(ts, d, id);
    AddTransaction(ts, d, id)
  }

  /** Two additions within one clock reading stay apart under `NextId`. */
  lemma NextIdSeparatesSameClockAdds(d1: Draft, d2: Draft, now: int)
    ensures var r := AddWithNextId(AddWithNextId([], d1, now), d2, now);
            |r| == 2 && r[0].id != r[1].id && DeleteTransaction(r, r[0].id) == [r[1]]
  {
  }

  // ---------------------------------------------------------------- budgets

  /** `budgets.find(b => b.category === c)` finds something. */
  predicate HasBudget(bs: seq<Budget>, c: string) {
    exists b :: b in bs && b.category == c
  }

  predicate UniqueCategories(bs: seq<Budget>) {
    forall i, j :: 0 <= i < j < |bs| ==> bs[i].category != bs[j].category
  }

  /** How many budgets name `c`. */
  function CountFor(bs: seq<Budget>, c: string): nat {
    |Filter(bs, (b: Budget) => b.category == c)|
  }

  /** Category-to-limit view of a budget list; where a category repeats,
      the first entry wins, as `find` would return it. */
  function LimitsByCategory(bs: seq<Budget>): map<string, real>
    decreases |bs|
  {
    if bs == [] then map[] else LimitsByCategory(bs[1..])[bs[0].category := bs[0].limit]
  }

  /** `upsertBudget`: a category already present has its limit replaced
      wherever it appears; a new one is appended. */
  function UpsertBudget(bs: seq<Budget>, c: string, limit: real): (r: seq<Budget>)
    ensures HasBudget(bs, c) ==> |r| == |bs|
    ensures HasBudget(bs, c) ==>
              forall i :: 0 <= i < |bs| ==>
                r[i].category == bs[i].category &&
                r[i].limit == (if bs[i].category == c then limit else bs[i].limit)
    ensures !HasBudget(bs, c) ==> |r| == |bs| + 1 && r[..|bs|] == bs && r[|bs|] == Budget(c, limit)
  {
    if HasBudget(bs, c) then
      seq(|bs|, i requires 0 <= i < |bs| => if bs[i].category == c then bs[i].(limit := limit) else bs[i])
    else bs + [Budget(c, limit)]
  }

  /** `deleteBudget`: every entry for `c` goes, the rest keep their order. */
  function DeleteBudget(bs: seq<Budget>, c: string): (r: seq<Budget>)
    ensures IsSubseq(r, bs)
    ensures forall b :: multiset(r)[b] == if b.category != c then multiset(bs)[b] else 0
    ensures !HasBudget(r, c)
  {
    Filter(bs, (b: Budget) => b.category != c)
  }

  lemma LimitsByCategoryKeys(bs: seq<Budget>)
    ensures forall c :: c in LimitsByCategory(bs) <==> HasBudget(bs, c)
    decreases |bs|
  {
    if bs != [] {
      LimitsByCategoryKeys(bs[1..]);
      assert forall b :: b in bs <==> b == bs[0] || b in bs[1..];
    }
  }

  /** Where every entry for `c` is rewritten to `limit` and the others are
      kept, the map view changes at `c` alone. */
  lemma {:induction false} RewriteIsMapUpdate(bs: seq<Budget>, r: seq<Budget>, c: string, limit: real)
    requires HasBudget(bs, c) && |r| == |bs|
    requires forall i :: 0 <= i < |bs| ==>
               r[i].category == bs[i].category &&
               r[i].limit == (if bs[i].category == c then limit else bs[i].limit)
    ensures LimitsByCategory(r) == LimitsByCategory(bs)[c := limit]
    decreases |bs|
  {
    if bs[0].category == c {
      if HasBudget(bs[1..], c) {
        RewriteIsMapUpdate(bs[1..], r[1..], c, limit);
      } else {
        MapViewOfUnchanged(bs[1..], r[1..], c, limit);
        LimitsByCategoryKeys(bs[1..]);
      }
    } else {
      assert bs[0] in bs[..1];
      var b :| b in bs && b.category == c;
      assert b in bs[1..];
      RewriteIsMapUpdate(bs[1..], r[1..], c, limit);
    }
  }

  /** Without any entry for `c`, the rewrite touches nothing. */
  lemma {:induction false} MapViewOfUnchanged(bs: seq<Budget>, r: seq<Budget>, c: string, limit: real)
    requires !HasBudget(bs, c) && |r| == |bs|
    requires forall i :: 0 <= i < |bs| ==>
               r[i].category == bs[i].category &&
               r[i].limit == (if bs[i].category == c then limit else bs[i].limit)
    ensures r == bs
  {
    forall i | 0 <= i < |bs|
      ensures r[i] == bs[i]
    {
      assert bs[i] in bs;
    }
  }

  lemma {:induction false} LimitsByCategoryAppend(bs: seq<Budget>, b: Budget)
    requires !HasBudget(bs, b.category)
    ensures LimitsByCategory(bs + [b]) == LimitsByCategory(bs)[b.category := b.limit]
    decreases |bs|
  {
    if bs == [] {
      assert bs + [b] == [b];
    } else {
      assert (bs + [b])[1..] == bs[1..] + [b];
      assert bs[0] in bs;
      LimitsByCategoryAppend(bs[1..], b);
    }
  }

  /** Upserting is updating the category-to-limit view at one key. */
  lemma UpsertIsMapUpdate(bs: seq<Budget>, c: string, limit: real)
    ensures LimitsByCategory(UpsertBudget(bs, c, limit)) == LimitsByCategory(bs)[c := limit]
  {
    var r := UpsertBudget(bs, c, limit);
    if HasBudget(bs, c) {
      RewriteIsMapUpdate(bs, r, c, limit);
    } else {
      assert r == bs + [Budget(c, limit)];
      LimitsByCategoryAppend(bs, Budget(c, limit));
    }
  }

  lemma UpdateThenRemove(m: map<string, real>, k: string, v: real, c: string)
    ensures k != c ==> (m - {c})[k := v] == m[k := v] - {c}
    ensures k == c ==> m[k := v] - {c} == m - {c}
  {
  }

  /** Deleting a budget removes its key from the category-to-limit view. */
  lemma {:induction false} DeleteIsMapRemoval(bs: seq<Budget>, c: string)
    ensures LimitsByCategory(DeleteBudget(bs, c)) == LimitsByCategory(bs) - {c}
    decreases |bs|
  {
    if bs != [] {
      DeleteIsMapRemoval(bs[1..], c);
      var rest := DeleteBudget(bs[1..], c);
      if bs[0].category != c {
        assert DeleteBudget(bs, c) == [bs[0]] + rest;
        assert ([bs[0]] + rest)[1..] == rest;
        assert LimitsByCategory(DeleteBudget(bs, c)) == LimitsByCategory(rest)[bs[0].category := bs[0].limit];
      } else {
        assert DeleteBudget(bs, c) == rest;
      }
      UpdateThenRemove(LimitsByCategory(bs[1..]), bs[0].category, bs[0].limit, c);
    }
  }

  lemma DeleteBudgetIdempotent(bs: seq<Budget>, c: string)
    ensures DeleteBudget(DeleteBudget(bs, c), c) == DeleteBudget(bs, c)
  {
    FilterIdempotent(bs, (b: Budget) => b.category != c);
  }

  /** Deleting a category nobody budgets changes nothing. */
  lemma DeleteAbsentBudget(bs: seq<Budget>, c: string)
    requires !HasBudget(bs, c)
    ensures DeleteBudget(bs, c) == bs
  {
    FilterKeepsAll(bs, (b: Budget) => b.category != c);
  }

  lemma UpsertKeepsCategoriesUnique(bs: seq<Budget>, c: string, limit: real)
    requires UniqueCategories(bs)
    ensures UniqueCategories(UpsertBudget(bs, c, limit))
  {
    var r := UpsertBudget(bs, c, limit);
    if !HasBudget(bs, c) {
      forall i, j | 0 <= i < j < |r|
        ensures r[i].category != r[j].category
      {
        if j == |bs| {
          assert r[i] == bs[i] && bs[i] in bs;
        } else {
          assert r[i] == bs[i] && r[j] == bs[j];
        }
      }
    }
  }

  /** Keeping some of the budgets keeps their categories distinct. */
  lemma {:induction false} FilterKeepsCategoriesUnique(bs: seq<Budget>, p: Budget -> bool)
    requires UniqueCategories(bs)
    ensures UniqueCategories(Filter(bs, p))
    decreases |bs|
  {
    if bs != [] {
      var tail := bs[1..];
      assert UniqueCategories(tail) by {
        forall i, j | 0 <= i < j < |tail|
          ensures tail[i].category != tail[j].category
        {
          assert tail[i] == bs[i + 1] && tail[j] == bs[j + 1];
        }
      }
      FilterKeepsCategoriesUnique(tail, p);
      var rt := Filter(tail, p);
      if p(bs[0]) {
        var r := Filter(bs, p);
        assert r == [bs[0]] + rt;
        forall i, j | 0 <= i < j < |r|
          ensures r[i].category != r[j].category
        {
          if i == 0 {
            assert r[j] == rt[j - 1] && rt[j - 1] in rt;
            var k :| 0 <= k < |tail| && tail[k] == rt[j - 1];
            assert tail[k] == bs[k + 1];
          } else {
            assert r[i] == rt[i - 1] && r[j] == rt[j - 1];
          }
        }
      } else {
        assert Filter(bs, p) == rt;
      }
    }
  }

  /** Deleting a budget keeps the categories distinct. */
  lemma DeleteBudgetKeepsCategoriesUnique(bs: seq<Budget>, c: string)
    requires UniqueCategories(bs)
    ensures UniqueCategories(DeleteBudget(bs, c))
  {
    FilterKeepsCategoriesUnique(bs, (b: Budget) => b.category != c);
  }

  /** A list with no entry for `c` counts none. */
  lemma CountAbsent(bs: seq<Budget>, c: string)
    requires forall b :: b in bs ==> b.category != c
    ensures CountFor(bs, c) == 0
  {
    FilterDropsAll(bs, (b: Budget) => b.category == c);
  }

  /** In a list without repeats, a category present occurs exactly once. */
  lemma {:induction false} UniqueCount(bs: seq<Budget>, c: string)
    requires UniqueCategories(bs) && HasBudget(bs, c)
    ensures CountFor(bs, c) == 1
    decreases |bs|
  {
    var b :| b in bs && b.category == c;
    if bs[0].category == c {
      forall b' | b' in bs[1..]
        ensures b'.category != c
      {
        var j :| 0 <= j < |bs[1..]| && bs[1..][j] == b';
        assert bs[j + 1] == b';
      }
      CountAbsent(bs[1..], c);
      assert CountFor(bs, c) == 1 + CountFor(bs[1..], c);
    } else {
      assert b in bs[1..];
      UniqueCount(bs[1..], c);
      assert CountFor(bs, c) == CountFor(bs[1..], c);
    }
  }

  /** `upsertBudget(c, L1)` then `upsertBudget(c, L2)` leaves one budget
      for `c`, holding `L2`. */
  lemma UpsertTwice(bs: seq<Budget>, c: string, l1: real, l2: real)
    requires UniqueCategories(bs)
    ensures var r := UpsertBudget(UpsertBudget(bs, c, l1), c, l2);
            UniqueCategories(r) && CountFor(r, c) == 1 && c in LimitsByCategory(r) && LimitsByCategory(r)[c] == l2
  {
    var r1 := UpsertBudget(bs, c, l1);
    var r := UpsertBudget(r1, c, l2);
    UpsertKeepsCategoriesUnique(bs, c, l1);
    UpsertKeepsCategoriesUnique(r1, c, l2);
    UpsertIsMapUpdate(r1, c, l2);
    LimitsByCategoryKeys(r);
    UniqueCount(r, c);
  }

  // ---------------------------------------------------------------- totals

  function TotalIncome(ts: seq<Transaction>): real {
    Total(Filter(ts, IsIncome))
  }

  function TotalExpenses(ts: seq<Transaction>): real {
    Total(Filter(ts, IsExpense))
  }

  function Balance(ts: seq<Transaction>): real {
    TotalIncome(ts) - TotalExpenses(ts)
  }

  /** A record's effect on the balance: plus for income, minus for
      expense, nothing for any other type. */
  function SignedAmount(t: Transaction): real {
    if t.kind == INCOME then t.amount else if t.kind == EXPENSE then -t.amount else 0.0
  }

  /** The balance is the signed sum of all records, taken one by one. */
  lemma {:induction false} BalanceIsSignedSum(ts: seq<Transaction>)
    ensures Balance(ts) == SumOf(ts, SignedAmount)
    decreases |ts|
  {
    if ts != [] {
      BalanceIsSignedSum(ts[1..]);
    }
  }

  /** Income and expenses together account for every record when every
      type is income or expense, and neither is negative when no amount is. */
  lemma TotalsCoverLedger(ts: seq<Transaction>)
    requires KnownKinds(ts)
    ensures TotalIncome(ts) + TotalExpenses(ts) == Total(ts)
    ensures (forall t :: t in ts ==> t.amount >= 0.0) ==> TotalIncome(ts) >= 0.0 && TotalExpenses(ts) >= 0.0
  {
    TotalSplitsOnIncome(ts);
    NotIncomeIsExpense(ts);
    if forall t :: t in ts ==> t.amount >= 0.0 {
      TotalNonNegative(Filter(ts, IsIncome));
      TotalNonNegative(Filter(ts, IsExpense));
    }
  }

  /** Adding a record moves exactly one of the totals by its amount. */
  lemma AddMovesTotals(ts: seq<Transaction>, d: Draft, id: int)
    ensures TotalIncome(AddTransaction(ts, d, id)) == TotalIncome(ts) + (if d.kind == INCOME then d.amount else 0.0)
    ensures TotalExpenses(AddTransaction(ts, d, id)) == TotalExpenses(ts) + (if d.kind == EXPENSE then d.amount else 0.0)
  {
    var r := AddTransaction(ts, d, id);
    assert r[1..] == ts;
  }
}

=== FILE: grouping.dfy ===
/** The "sum per category" fold two pages build with `reduce` over an object
    accumulator: `acc[t.category] = (acc[t.category] || 0) + t.amount`.

    The object is modelled as a list of entries in key-insertion order, which
    is the order `Object.entries` reports for keys that are not array
    indices (category names never are). */
module Grouping {
  import opened Seqs
  import opened Entities

  /** One key of the accumulator object and the sum stored under it. */
  datatype Entry = Entry(key: string, total: real)

  function Keys(g: seq<Entry>): (ks: seq<string>)
    ensures |ks| == |g|
    decreases |g|
  {
    if g == [] then [] else [g[0].key] + Keys(g[1..])
  }

  /** `acc[k] || 0`: the sum stored under `k`, or zero when `k` is absent. */
  function Lookup(g: seq<Entry>, k: string): real
    decreases |g|
  {
    if g == [] then 0.0
    else if g[0].key == k then g[0].total
    else Lookup(g[1..], k)
  }

  /** Sum of every entry's total. */
  function SumEntries(g: seq<Entry>): real
    decreases |g|
  {
    if g == [] then 0.0 else g[0].total + SumEntries(g[1..])
  }

  /** `acc[k] = (acc[k] || 0) + v`: an existing key keeps its place and grows
      by `v`; a new key is appended with `v`. */
  function AddTo(g: seq<Entry>, k: string, v: real): (r: seq<Entry>)
    ensures Keys(r) == if k in Keys(g) then Keys(g) else Keys(g) + [k]
    ensures Lookup(r, k) == Lookup(g, k) + v
    ensures forall k' :: k' != k ==> Lookup(r, k') == Lookup(g, k')
    ensures SumEntries(r) == SumEntries(g) + v
    decreases |g|
  {
    if g == [] then [Entry(k, v)]
    else if g[0].key == k then [g[0].(total := g[0].total + v)] + g[1..]
    else
      var rest := AddTo(g[1..], k, v);
      assert ([g[0]] + rest)[1..] == rest;
      [g[0]] + rest
  }

  /** The categories of `ts`, record by record. */
  function CategoriesOf(ts: seq<Transaction>): (cs: seq<string>)
    ensures |cs| == |ts|
    ensures forall i :: 0 <= i < |ts| ==> cs[i] == ts[i].category
  {
    seq(|ts|, i requires 0 <= i < |ts| => ts[i].category)
  }

  /** The whole `reduce`, folding the records from first to last. */
  function GroupByCategory(ts: seq<Transaction>): seq<Entry>
    decreases |ts|
  {
    if ts == [] then []
    else
      var last := ts[|ts| - 1];
      AddTo(GroupByCategory(ts[..|ts| - 1]), last.category, last.amount)
  }

  /** The keys come out in order of each category's first record, once
      each: exactly `[...new Set(categories)]`. */
  lemma {:induction false} GroupKeysInFirstSeenOrder(ts: seq<Transaction>)
    ensures Keys(GroupByCategory(ts)) == Dedup(CategoriesOf(ts))
    decreases |ts|
  {
    if ts != [] {
      var init := ts[..|ts| - 1];
      GroupKeysInFirstSeenOrder(init);
      assert CategoriesOf(ts)[..|ts| - 1] == CategoriesOf(init);
    }
  }

  /** A category is a key exactly when some record has it, and no key
      appears twice. */
  lemma GroupKeys(ts: seq<Transaction>)
    ensures forall c :: c in Keys(GroupByCategory(ts)) <==> exists t :: t in ts && t.category == c
    ensures NoDuplicates(Keys(GroupByCategory(ts)))
  {
    GroupKeysInFirstSeenOrder(ts);
    var cs := CategoriesOf(ts);
    forall c
      ensures c in cs <==> exists t :: t in ts && t.category == c
    {
      if exists t :: t in ts && t.category == c {
        var t :| t in ts && t.category == c;
        var i :| 0 <= i < |ts| && ts[i] == t;
        assert cs[i] == c;
      }
    }
  }

  lemma LookupDropLast(ts: seq<Transaction>, c: string)
    requires ts != []
    ensures var last := ts[|ts| - 1];
      Lookup(GroupByCategory(ts), c)
        == Lookup(GroupByCategory(ts[..|ts| - 1]), c) + (if last.category == c then last.amount else 0.0)
  {
  }

  lemma CategoryTotalDropLast(ts: seq<Transaction>, c: string)
    requires ts != []
    ensures var last := ts[|ts| - 1];
      Total(InCategory(ts, c))
        == Total(InCategory(ts[..|ts| - 1], c)) + (if last.category == c then last.amount else 0.0)
  {
    var init, last := ts[..|ts| - 1], ts[|ts| - 1];
    assert ts == init + [last];
    InCategoryAppend(init, [last], c);
    TotalAppend(InCategory(init, c), InCategory([last], c));
    InCategoryOne(last, c);
  }

  /** The sum stored under `c` is the total of the records of category `c`
      (zero when there are none). */
  lemma {:induction false} GroupLookup(ts: seq<Transaction>, c: string)
    ensures Lookup(GroupByCategory(ts), c) == Total(InCategory(ts, c))
    decreases |ts|
  {
    if ts != [] {
      GroupLookup(ts[..|ts| - 1], c);
      LookupDropLast(ts, c);
      CategoryTotalDropLast(ts, c);
    }
  }

  /** Every record lands in exactly one entry: the entries add up to the
      total of all records. */
  lemma {:induction false} GroupSum(ts: seq<Transaction>)
    ensures SumEntries(GroupByCategory(ts)) == Total(ts)
    decreases |ts|
  {
    if ts != [] {
      var init, last := ts[..|ts| - 1], ts[|ts| - 1];
      GroupSum(init);
      assert ts == init + [last];
      TotalAppend(init, [last]);
      TotalOne(last);
    }
  }
}

=== FILE: mock_data.dfy ===
/** The fixed category vocabulary, its colour table, and the seed ledger
    used when nothing has been stored yet. */
module MockData {
  import opened Seqs
  import opened Entities

  const INCOME_CATEGORIES: seq<string> := ["Salary", "Freelance", "Investment", "Gift", "Other Income"]

  const EXPENSE_CATEGORIES: seq<string> :=
    ["Food", "Transport", "Shopping", "Entertainment", "Health", "Rent", "Utilities", "Education", "Other"]

  /** `CATEGORIES[type]`: the vocabulary offered for a transaction type;
      any other type has none. */
  function Categories(kind: string): seq<string> {
    if kind == INCOME then INCOME_CATEGORIES
    else if kind == EXPENSE then EXPENSE_CATEGORIES
    else []
  }

  /** Every category the category filter offers, income first. */
  const ALL_CATEGORIES: seq<string> := INCOME_CATEGORIES + EXPENSE_CATEGORIES

  const CATEGORY_COLORS: map<string, string> := map[
    "Salary" := "#16a34a",
    "Freelance" := "#22c55e",
    "Investment" := "#4ade80",
    "Gift" := "#86efac",
    "Other Income" := "#bbf7d0",
    "Food" := "#ef4444",
    "Transport" := "#f97316",
    "Shopping" := "#eab308",
    "Entertainment" := "#8b5cf6",
    "Health" := "#06b6d4",
    "Rent" := "#ec4899",
    "Utilities" := "#64748b",
    "Education" := "#3b82f6",
    "Other" := "#a8a29e"
  ]

  const INITIAL_TRANSACTIONS: seq<Transaction> := [
    Transaction(1, "income", "Salary", 3500.0, Some("Monthly salary"), "2025-02-01"),
    Transaction(2, "expense", "Rent", 1200.0, Some("February rent"), "2025-02-02"),
    Transaction(3, "expense", "Food", 85.0, Some("Grocery shopping"), "2025-02-04"),
    Transaction(4, "income", "Freelance", 600.0, Some("Web project"), "2025-02-05"),
    Transaction(5, "expense", "Transport", 45.0, Some("Monthly transit pass"), "2025-02-06"),
    Transaction(6, "expense", "Entertainment", 30.0, Some("Netflix + Spotify"), "2025-02-07"),
    Transaction(7, "expense", "Shopping", 120.0, Some("New shoes"), "2025-02-09"),
    Transaction(8, "expense", "Health", 60.0, Some("Gym membership"), "2025-02-10"),
    Transaction(9, "income", "Investment", 240.0, Some("Dividend payout"), "2025-02-12"),
    Transaction(10, "expense", "Food", 55.0, Some("Dining out"), "2025-02-14"),
    Transaction(11, "expense", "Utilities", 90.0, Some("Electricity bill"), "2025-02-15"),
    Transaction(12, "expense", "Education", 199.0, Some("Online course"), "2025-02-17"),
    Transaction(13, "expense", "Food", 40.0, Some("Coffee & snacks"), "2025-02-18"),
    Transaction(14, "income", "Freelance", 350.0, Some("Logo design"), "2025-02-19")
  ]

  const INITIAL_BUDGETS: seq<Budget> := [
    Budget("Food", 300.0),
    Budget("Transport", 100.0),
    Budget("Shopping", 200.0),
    Budget("Entertainment", 80.0),
    Budget("Health", 100.0)
  ]

  /** The two vocabularies share no category and repeat none, so the
      combined list repeats none either. */
  lemma VocabularyWellFormed()
    ensures forall c :: c in INCOME_CATEGORIES ==> c !in EXPENSE_CATEGORIES
    ensures NoDuplicates(INCOME_CATEGORIES) && NoDuplicates(EXPENSE_CATEGORIES)
    ensures NoDuplicates(ALL_CATEGORIES)
  {
  }

  /** The colour table has an entry for exactly the vocabulary. */
  lemma ColorsCoverVocabulary()
    ensures forall c :: c in ALL_CATEGORIES <==> c in CATEGORY_COLORS
  {
  }
}

=== FILE: seed_facts.dfy ===
/** What the seed data shows on first start: the overview totals, the
    February 2025 budget page, the transaction list's month choices and
    chart, and the shape of the seed records themselves.

    Each figure is reached in two steps: a lemma about every ledger turns
    the page's expression into a running sum from a position on, and a
    chain of single unfoldings evaluates that sum on the seed records. */
module SeedFacts {
  import opened Seqs
  import Strings
  import opened Entities
  import opened Grouping
  import opened FinanceStore
  import opened MockData
  import BudgetPage
  import TransactionQuery
  import Dashboard

  const SEED_MONTH: string := "2025-02"

  // ---------------------------------------------------------------- running sums

  /** The amounts of the records from position `k` on that satisfy `p`. */
  function SumIfFrom(ts: seq<Transaction>, p: Transaction -> bool, k: nat): real
    decreases |ts| - k
  {
    if k >= |ts| then 0.0 else (if p(ts[k]) then ts[k].amount else 0.0) + SumIfFrom(ts, p, k + 1)
  }

  lemma {:induction false} TotalFilterSuffix(ts: seq<Transaction>, p: Transaction -> bool, k: nat)
    requires k <= |ts|
    ensures Total(Filter(ts[k..], p)) == SumIfFrom(ts, p, k)
    decreases |ts| - k
  {
    if k < |ts| {
      TotalFilterFrom(ts, p, k);
      TotalFilterSuffix(ts, p, k + 1);
    } else {
      assert ts[k..] == [];
    }
  }

  /** A filtered total is the running sum from the start. */
  lemma TotalFilterIsSumIf(ts: seq<Transaction>, p: Transaction -> bool)
    ensures Total(Filter(ts, p)) == SumIfFrom(ts, p, 0)
  {
    TotalFilterSuffix(ts, p, 0);
    assert ts[0..] == ts;
  }

  /** The expense amounts of category `c` from position `k` on. */
  function CategorySpendFrom(ts: seq<Transaction>, c: string, k: nat): real
    decreases |ts| - k
  {
    if k >= |ts| then 0.0
    else (if ts[k].kind == EXPENSE && ts[k].category == c then ts[k].amount else 0.0) + CategorySpendFrom(ts, c, k + 1)
  }

  lemma {:induction false} CategorySpendSuffix(ts: seq<Transaction>, c: string, k: nat)
    requires k <= |ts|
    ensures Total(InCategory(Filter(ts[k..], IsExpense), c)) == CategorySpendFrom(ts, c, k)
    decreases |ts| - k
  {
    if k < |ts| {
      FilterFrom(ts, IsExpense, k);
      var rest := Filter(ts[k + 1..], IsExpense);
      if IsExpense(ts[k]) {
        InCategoryConsTotal(ts[k], rest, c);
      } else {
        assert [] + rest == rest;
      }
      CategorySpendSuffix(ts, c, k + 1);
    } else {
      assert ts[k..] == [];
    }
  }

  /** A category's expense total is its running sum from the start. */
  lemma CategorySpendIsSum(ts: seq<Transaction>, c: string)
    ensures Total(InCategory(Filter(ts, IsExpense), c)) == CategorySpendFrom(ts, c, 0)
  {
    CategorySpendSuffix(ts, c, 0);
    assert ts[0..] == ts;
  }

  // ---------------------------------------------------------------- the seed ledger

  lemma SeedIds()
    ensures |INITIAL_TRANSACTIONS| == 14
    ensures forall i :: 0 <= i < |INITIAL_TRANSACTIONS| ==> INITIAL_TRANSACTIONS[i].id == i + 1
  {
  }

  /** What every seed record satisfies: a known type, a category of that
      type's vocabulary, a positive amount and a date in February 2025. */
  predicate SeedRecordOk(t: Transaction) {
    && (t.kind == INCOME || t.kind == EXPENSE)
    && t.category in Categories(t.kind)
    && t.amount > 0.0
    && MonthOf(t.date) == SEED_MONTH
  }

  lemma SeedRecordsA()
    ensures forall i :: 0 <= i < 4 ==> SeedRecordOk(INITIAL_TRANSACTIONS[i])
  {
    var s := INITIAL_TRANSACTIONS;
    assert SeedRecordOk(s[0]);
    assert SeedRecordOk(s[1]);
    assert SeedRecordOk(s[2]);
    assert SeedRecordOk(s[3]);
  }

  lemma SeedRecordsB()
    ensures forall i :: 4 <= i < 7 ==> SeedRecordOk(INITIAL_TRANSACTIONS[i])
  {
    var s := INITIAL_TRANSACTIONS;
    assert SeedRecordOk(s[4]);
    assert SeedRecordOk(s[5]);
    assert SeedRecordOk(s[6]);
  }

  lemma SeedRecordsC()
    ensures forall i :: 7 <= i < 11 ==> SeedRecordOk(INITIAL_TRANSACTIONS[i])
  {
    var s := INITIAL_TRANSACTIONS;
    assert SeedRecordOk(s[7]);
    assert SeedRecordOk(s[8]);
    assert SeedRecordOk(s[9]);
    assert SeedRecordOk(s[10]);
  }

  lemma SeedRecordsD()
    ensures forall i :: 11 <= i < 14 ==> SeedRecordOk(INITIAL_TRANSACTIONS[i])
  {
    var s := INITIAL_TRANSACTIONS;
    assert SeedRecordOk(s[11]);
    assert SeedRecordOk(s[12]);
    assert SeedRecordOk(s[13]);
  }

  lemma SeedRecords()
    ensures forall t :: t in INITIAL_TRANSACTIONS ==> SeedRecordOk(t)
  {
    SeedRecordsA();
    SeedRecordsB();
    SeedRecordsC();
    SeedRecordsD();
    forall t | t in INITIAL_TRANSACTIONS
      ensures SeedRecordOk(t)
    {
      var i :| 0 <= i < |INITIAL_TRANSACTIONS| && INITIAL_TRANSACTIONS[i] == t;
    }
  }

  /** The seed ledger: ids 1 to 14 in order and so distinct, every record
      income or expense with a category of its type's vocabulary and a
      positive amount, and every record dated in February 2025. */
  lemma SeedLedgerWellFormed()
    ensures |INITIAL_TRANSACTIONS| == 14
    ensures forall i :: 0 <= i < |INITIAL_TRANSACTIONS| ==> INITIAL_TRANSACTIONS[i].id == i + 1
    ensures UniqueIds(INITIAL_TRANSACTIONS)
    ensures KnownKinds(INITIAL_TRANSACTIONS)
    ensures forall t :: t in INITIAL_TRANSACTIONS ==> SeedRecordOk(t)
  {
    SeedIds();
    SeedRecords();
  }

  lemma SeedIncomeSum()
    ensures SumIfFrom(INITIAL_TRANSACTIONS, IsIncome, 0) == 4690.0
  {
    var s := INITIAL_TRANSACTIONS;
    assert SumIfFrom(s, IsIncome, 13) == 350.0;
    assert SumIfFrom(s, IsIncome, 12) == 350.0;
    assert SumIfFrom(s, IsIncome, 11) == 350.0;
    assert SumIfFrom(s, IsIncome, 10) == 350.0;
    assert SumIfFrom(s, IsIncome, 9) == 350.0;
    assert SumIfFrom(s, IsIncome, 8) == 590.0;
    assert SumIfFrom(s, IsIncome, 7) == 590.0;
    assert SumIfFrom(s, IsIncome, 6) == 590.0;
    assert SumIfFrom(s, IsIncome, 5) == 590.0;
    assert SumIfFrom(s, IsIncome, 4) == 590.0;
    assert SumIfFrom(s, IsIncome, 3) == 1190.0;
    assert SumIfFrom(s, IsIncome, 2) == 1190.0;
    assert SumIfFrom(s, IsIncome, 1) == 1190.0;
    assert SumIfFrom(s, IsIncome, 0) == 4690.0;
  }

  lemma SeedExpenseSum()
    ensures SumIfFrom(INITIAL_TRANSACTIONS, IsExpense, 0) == 1924.0
  {
    var s := INITIAL_TRANSACTIONS;
    assert SumIfFrom(s, IsExpense, 13) == 0.0;
    assert SumIfFrom(s, IsExpense, 12) == 40.0;
    assert SumIfFrom(s, IsExpense, 11) == 239.0;
    assert SumIfFrom(s, IsExpense, 10) == 329.0;
    assert SumIfFrom(s, IsExpense, 9) == 384.0;
    assert SumIfFrom(s, IsExpense, 8) == 384.0;
    assert SumIfFrom(s, IsExpense, 7) == 444.0;
    assert SumIfFrom(s, IsExpense, 6) == 564.0;
    assert SumIfFrom(s, IsExpense, 5) == 594.0;
    assert SumIfFrom(s, IsExpense, 4) == 639.0;
    assert SumIfFrom(s, IsExpense, 3) == 639.0;
    assert SumIfFrom(s, IsExpense, 2) == 724.0;
    assert SumIfFrom(s, IsExpense, 1) == 1924.0;
    assert SumIfFrom(s, IsExpense, 0) == 1924.0;
  }

  lemma SeedIncome()
    ensures TotalIncome(INITIAL_TRANSACTIONS) == 4690.0
  {
    TotalFilterIsSumIf(INITIAL_TRANSACTIONS, IsIncome);
    SeedIncomeSum();
  }

  lemma SeedExpenses()
    ensures TotalExpenses(INITIAL_TRANSACTIONS) == 1924.0
  {
    TotalFilterIsSumIf(INITIAL_TRANSACTIONS, IsExpense);
    SeedExpenseSum();
  }

  /** The overview cards on first start: 4690 in, 1924 out, 2766 left. */
  lemma SeedTotals()
    ensures TotalIncome(INITIAL_TRANSACTIONS) == 4690.0
    ensures TotalExpenses(INITIAL_TRANSACTIONS) == 1924.0
    ensures Balance(INITIAL_TRANSACTIONS) == 2766.0
  {
    SeedIncome();
    SeedExpenses();
  }

  // ---------------------------------------------------------------- the budget page

  /** The seed budgets: one per category, all expense categories, all
      positive, 780 in total. */
  lemma SeedBudgetsWellFormed()
    ensures UniqueCategories(INITIAL_BUDGETS)
    ensures forall b :: b in INITIAL_BUDGETS ==> b.category in EXPENSE_CATEGORIES
    ensures BudgetPage.PositiveLimits(INITIAL_BUDGETS)
    ensures BudgetPage.TotalBudgeted(INITIAL_BUDGETS) == 780.0
  {
  }

  /** Each expense category's February 2025 spending in the seed ledger. */
  function SeedSpend(c: string): real {
    if c == "Rent" then 1200.0 else if c == "Food" then 180.0 else if c == "Transport" then 45.0
    else if c == "Entertainment" then 30.0 else if c == "Shopping" then 120.0 else if c == "Health" then 60.0
    else if c == "Utilities" then 90.0 else if c == "Education" then 199.0 else 0.0
  }

  /** The running sum of category `c`, one record at a time. */
  lemma SeedSpendSteps(c: string)
    ensures CategorySpendFrom(INITIAL_TRANSACTIONS, c, 14) == 0.0
    ensures CategorySpendFrom(INITIAL_TRANSACTIONS, c, 0) == 0.0 + CategorySpendFrom(INITIAL_TRANSACTIONS, c, 1)
    ensures CategorySpendFrom(INITIAL_TRANSACTIONS, c, 1) == (if c == "Rent" then 1200.0 else 0.0) + CategorySpendFrom(INITIAL_TRANSACTIONS, c, 2)
    ensures CategorySpendFrom(INITIAL_TRANSACTIONS, c, 2) == (if c == "Food" then 85.0 else 0.0) + CategorySpendFrom(INITIAL_TRANSACTIONS, c, 3)
    ensures CategorySpendFrom(INITIAL_TRANSACTIONS, c, 3) == 0.0 + CategorySpendFrom(INITIAL_TRANSACTIONS, c, 4)
    ensures CategorySpendFrom(INITIAL_TRANSACTIONS, c, 4) == (if c == "Transport" then 45.0 else 0.0) + CategorySpendFrom(INITIAL_TRANSACTIONS, c, 5)
    ensures CategorySpendFrom(INITIAL_TRANSACTIONS, c, 5) == (if c == "Entertainment" then 30.0 else 0.0) + CategorySpendFrom(INITIAL_TRANSACTIONS, c, 6)
    ensures CategorySpendFrom(INITIAL_TRANSACTIONS, c, 6) == (if c == "Shopping" then 120.0 else 0.0) + CategorySpendFrom(INITIAL_TRANSACTIONS, c, 7)
    ensures CategorySpendFrom(INITIAL_TRANSACTIONS, c, 7) == (if c == "Health" then 60.0 else 0.0) + CategorySpendFrom(INITIAL_TRANSACTIONS, c, 8)
    ensures CategorySpendFrom(INITIAL_TRANSACTIONS, c, 8) == 0.0 + CategorySpendFrom(INITIAL_TRANSACTIONS, c, 9)
    ensures CategorySpendFrom(INITIAL_TRANSACTIONS, c, 9) == (if c == "Food" then 55.0 else 0.0) + CategorySpendFrom(INITIAL_TRANSACTIONS, c, 10)
    ensures CategorySpendFrom(INITIAL_TRANSACTIONS, c, 10) == (if c == "Utilities" then 90.0 else 0.0) + CategorySpendFrom(INITIAL_TRANSACTIONS, c, 11)
    ensures CategorySpendFrom(INITIAL_TRANSACTIONS, c, 11) == (if c == "Education" then 199.0 else 0.0) + CategorySpendFrom(INITIAL_TRANSACTIONS, c, 12)
    ensures CategorySpendFrom(INITIAL_TRANSACTIONS, c, 12) == (if c == "Food" then 40.0 else 0.0) + CategorySpendFrom(INITIAL_TRANSACTIONS, c, 13)
    ensures CategorySpendFrom(INITIAL_TRANSACTIONS, c, 13) == 0.0 + CategorySpendFrom(INITIAL_TRANSACTIONS, c, 14)
  {
  }

  lemma SeedSpendSum(c: string)
    ensures CategorySpendFrom(INITIAL_TRANSACTIONS, c, 0) == SeedSpend(c)
  {
    SeedSpendSteps(c);
    if c == "Rent" {
    } else if c == "Food" {
    } else if c == "Transport" {
    } else if c == "Entertainment" {
    } else if c == "Shopping" {
    } else if c == "Health" {
    } else if c == "Utilities" {
    } else if c == "Education" {
    }
  }

  /** `spendingByCategory[c] || 0` on first start, February 2025. */
  lemma SeedSpending(c: string)
    ensures Lookup(BudgetPage.SpendingByCategory(INITIAL_TRANSACTIONS, SEED_MONTH), c) == SeedSpend(c)
  {
    SeedRecords();
    forall t | t in INITIAL_TRANSACTIONS
      ensures SEED_MONTH <= t.date
    {
      assert MonthOf(t.date) <= t.date;
    }
    BudgetPage.ExpensesOfMonthAll(INITIAL_TRANSACTIONS, SEED_MONTH);
    BudgetPage.SpendingIsCategoryTotal(INITIAL_TRANSACTIONS, SEED_MONTH, c);
    CategorySpendIsSum(INITIAL_TRANSACTIONS, c);
    SeedSpendSum(c);
  }

  /** In February 2025 Food has spent 180 of 300: 60 percent, a green
      bar with 120 left. */
  lemma SeedFoodBudget()
    ensures Lookup(BudgetPage.SpendingByCategory(INITIAL_TRANSACTIONS, SEED_MONTH), "Food") == 180.0
    ensures BudgetPage.Percent(180.0, 300.0) == 60.0
    ensures BudgetPage.Classify(180.0, 300.0) == BudgetPage.OnTrack
    ensures BudgetPage.BadgeFor(180.0, 300.0) == BudgetPage.Left(120.0)
  {
    SeedSpending("Food");
    BudgetPage.ClassifyThresholds(180.0, 300.0);
    BudgetPage.RatioAboveThreeQuarters(180.0, 300.0);
  }

  /** Spending of 180, 45, 120, 30 and 60 in the five budgeted categories. */
  predicate SeedBudgetedSpend(g: seq<Entry>) {
    && Lookup(g, "Food") == 180.0
    && Lookup(g, "Transport") == 45.0
    && Lookup(g, "Shopping") == 120.0
    && Lookup(g, "Entertainment") == 30.0
    && Lookup(g, "Health") == 60.0
  }

  lemma SeedSpentOnBudgeted(g: seq<Entry>)
    requires SeedBudgetedSpend(g)
    ensures BudgetPage.TotalSpentOnBudgeted(g, INITIAL_BUDGETS) == 435.0
  {
    var bs := INITIAL_BUDGETS;
    assert BudgetPage.TotalSpentOnBudgeted(g, bs[4..]) == 60.0 by {
      assert bs[4..][1..] == [];
    }
    assert BudgetPage.TotalSpentOnBudgeted(g, bs[3..]) == 90.0 by {
      assert bs[3..][1..] == bs[4..];
    }
    assert BudgetPage.TotalSpentOnBudgeted(g, bs[2..]) == 210.0 by {
      assert bs[2..][1..] == bs[3..];
    }
    assert BudgetPage.TotalSpentOnBudgeted(g, bs[1..]) == 255.0 by {
      assert bs[1..][1..] == bs[2..];
    }
  }

  lemma SeedNoneOver(g: seq<Entry>)
    requires SeedBudgetedSpend(g)
    ensures BudgetPage.OverBudgetCount(g, INITIAL_BUDGETS) == 0
  {
  }

  /** The budget page's cards in February 2025: 780 budgeted, 435 spent on
      the budgeted categories, and no budget over its limit. */
  lemma SeedBudgetCards()
    ensures var g := BudgetPage.SpendingByCategory(INITIAL_TRANSACTIONS, SEED_MONTH);
      && BudgetPage.TotalBudgeted(INITIAL_BUDGETS) == 780.0
      && BudgetPage.TotalSpentOnBudgeted(g, INITIAL_BUDGETS) == 435.0
      && BudgetPage.OverBudgetCount(g, INITIAL_BUDGETS) == 0
  {
    var g := BudgetPage.SpendingByCategory(INITIAL_TRANSACTIONS, SEED_MONTH);
    SeedBudgetsWellFormed();
    SeedSpending("Food");
    SeedSpending("Transport");
    SeedSpending("Shopping");
    SeedSpending("Entertainment");
    SeedSpending("Health");
    SeedSpentOnBudgeted(g);
    SeedNoneOver(g);
  }

  // ---------------------------------------------------------------- the list and the chart

  lemma SeedInOneMonth()
    ensures INITIAL_TRANSACTIONS != [] && KnownKinds(INITIAL_TRANSACTIONS)
    ensures forall t :: t in INITIAL_TRANSACTIONS ==> MonthOf(t.date) == SEED_MONTH
  {
    SeedRecords();
    assert INITIAL_TRANSACTIONS[0].id == 1;
  }

  /** The month selector offers February 2025 alone, and the seed list
      fits on two pages. */
  lemma SeedTransactionPage()
    ensures TransactionQuery.Months(INITIAL_TRANSACTIONS) == [SEED_MONTH]
    ensures TransactionQuery.TotalPages(|INITIAL_TRANSACTIONS|) == 2
  {
    SeedIds();
    SeedInOneMonth();
    TransactionQuery.OneMonthListed(INITIAL_TRANSACTIONS, SEED_MONTH);
  }

  lemma SeedSeriesShape()
    ensures Dashboard.MonthlySeries(INITIAL_TRANSACTIONS) ==
      [Dashboard.MonthRow(SEED_MONTH, TotalIncome(INITIAL_TRANSACTIONS), TotalExpenses(INITIAL_TRANSACTIONS))]
  {
    SeedInOneMonth();
    Dashboard.OneMonthSeries(INITIAL_TRANSACTIONS, SEED_MONTH);
  }

  /** The area chart on first start has one point, February 2025, at 4690
      in and 1924 out. */
  lemma SeedMonthlySeries()
    ensures Dashboard.MonthlySeries(INITIAL_TRANSACTIONS) == [Dashboard.MonthRow(SEED_MONTH, 4690.0, 1924.0)]
  {
    SeedSeriesShape();
    SeedTotals();
  }
}

=== FILE: seqs.dfy ===
/** Generic sequence vocabulary shared by the finance model: optional values,
    results, an order-preserving filter, subsequences, reversal, weighted sums
    and first-occurrence de-duplication (the iteration order of a JavaScript
    `Set`). */
module Seqs {

  datatype Option<+T> = None | Some(value: T)

  /** Outcome of a guarded user action: the value it produced, or the
      message it showed instead. */
  datatype Result<+T> = Ok(value: T) | Err(message: string)

  /** `sub` is obtained from `s` by deleting elements, keeping the order of
      the rest. */
  predicate IsSubseq<T(==)>(sub: seq<T>, s: seq<T>)
    decreases |s|
  {
    sub == [] || (s != [] && ((sub[0] == s[0] && IsSubseq(sub[1..], s[1..])) || IsSubseq(sub, s[1..])))
  }

  predicate NoDuplicates<T(==)>(s: seq<T>) {
    forall i, j :: 0 <= i < j < |s| ==> s[i] != s[j]
  }

  /** `Array.prototype.filter`: the elements of `s` satisfying `p`, in order. */
  function Filter<T(==,!new)>(s: seq<T>, p: T -> bool): (r: seq<T>)
    ensures |r| <= |s|
    ensures IsSubseq(r, s)
    ensures forall x :: multiset(r)[x] == if p(x) then multiset(s)[x] else 0
    ensures forall x :: x in r <==> x in s && p(x)
    decreases |s|
  {
    if s == [] then []
    else
      assert s == [s[0]] + s[1..];
      if p(s[0]) then [s[0]] + Filter(s[1..], p) else Filter(s[1..], p)
  }

  lemma {:induction false} FilterAppend<T(!new)>(a: seq<T>, b: seq<T>, p: T -> bool)
    ensures Filter(a + b, p) == Filter(a, p) + Filter(b, p)
    decreases |a|
  {
    if a == [] {
      assert a + b == b;
    } else {
      assert (a + b)[1..] == a[1..] + b;
      FilterAppend(a[1..], b, p);
    }
  }

  /** Filtering a sequence whose elements all pass changes nothing. */
  lemma {:induction false} FilterKeepsAll<T(!new)>(s: seq<T>, p: T -> bool)
    requires forall x :: x in s ==> p(x)
    ensures Filter(s, p) == s
    decreases |s|
  {
    if s != [] {
      FilterKeepsAll(s[1..], p);
    }
  }

  /** Filtering a sequence none of whose elements passes yields nothing. */
  lemma FilterDropsAll<T(!new)>(s: seq<T>, p: T -> bool)
    requires forall x :: x in s ==> !p(x)
    ensures Filter(s, p) == []
  {
    var r := Filter(s, p);
    assert multiset(r) == multiset{};
  }

  /** Filtering from position `k` on: the element at `k`, if it passes,
      then the filtered rest. */
  lemma FilterFrom<T(!new)>(s: seq<T>, p: T -> bool, k: nat)
    requires k < |s|
    ensures Filter(s[k..], p) == (if p(s[k]) then [s[k]] else []) + Filter(s[k + 1..], p)
  {
    assert s[k..][1..] == s[k + 1..];
  }

  lemma FilterIdempotent<T(!new)>(s: seq<T>, p: T -> bool)
    ensures Filter(Filter(s, p), p) == Filter(s, p)
  {
    FilterKeepsAll(Filter(s, p), p);
  }

  /** Two tests that agree on every element keep the same elements. */
  lemma {:induction false} FilterAgree<T(!new)>(s: seq<T>, p: T -> bool, q: T -> bool)
    requires forall x :: x in s ==> p(x) == q(x)
    ensures Filter(s, p) == Filter(s, q)
    decreases |s|
  {
    if s != [] {
      assert s[0] in s;
      assert forall x :: x in s[1..] ==> x in s;
      FilterAgree(s[1..], p, q);
    }
  }

  /** Filtering respects permutations: equal multisets in, equal multisets out. */
  lemma FilterPermutation<T(!new)>(a: seq<T>, b: seq<T>, p: T -> bool)
    requires multiset(a) == multiset(b)
    ensures multiset(Filter(a, p)) == multiset(Filter(b, p))
  {
    forall x
      ensures multiset(Filter(a, p))[x] == multiset(Filter(b, p))[x]
    {
    }
  }

  /** Two positions that pass the filter leave at least two survivors. */
  lemma FilterKeepsTwo<T(!new)>(s: seq<T>, p: T -> bool, i: nat, j: nat)
    requires i < j < |s| && p(s[i]) && p(s[j])
    ensures |Filter(s, p)| >= 2
  {
    assert s == s[..j] + s[j..];
    FilterAppend(s[..j], s[j..], p);
    assert s[i] in s[..j];
    assert s[j] in s[j..];
    assert Filter(s[..j], p) != [] by { assert s[i] in Filter(s[..j], p); }
    assert Filter(s[j..], p) != [] by { assert s[j] in Filter(s[j..], p); }
  }

  function Reverse<T>(s: seq<T>): (r: seq<T>)
    ensures |r| == |s|
    ensures forall i :: 0 <= i < |s| ==> r[i] == s[|s| - 1 - i]
    decreases |s|
  {
    if s == [] then [] else Reverse(s[1..]) + [s[0]]
  }

  /** Reversal keeps the same elements. */
  lemma ReverseMembers<T>(s: seq<T>, x: T)
    ensures x in Reverse(s) <==> x in s
  {
    var r := Reverse(s);
    if x in r {
      var i :| 0 <= i < |r| && r[i] == x;
      assert s[|s| - 1 - i] == x;
    }
    if x in s {
      var i :| 0 <= i < |s| && s[i] == x;
      assert r[|s| - 1 - i] == x;
    }
  }

  lemma {:induction false} FilterReverse<T(!new)>(s: seq<T>, p: T -> bool)
    ensures Filter(Reverse(s), p) == Reverse(Filter(s, p))
    decreases |s|
  {
    if s != [] {
      FilterReverse(s[1..], p);
      FilterAppend(Reverse(s[1..]), [s[0]], p);
      assert Filter([s[0]], p) == if p(s[0]) then [s[0]] else [];
    }
  }

  /** `s.reduce((sum, x) => sum + w(x), 0)` over exact reals. */
  function SumOf<T>(s: seq<T>, w: T -> real): real
    decreases |s|
  {
    if s == [] then 0.0 else w(s[0]) + SumOf(s[1..], w)
  }

  lemma {:induction false} SumOfAppend<T>(a: seq<T>, b: seq<T>, w: T -> real)
    ensures SumOf(a + b, w) == SumOf(a, w) + SumOf(b, w)
    decreases |a|
  {
    if a == [] {
      assert a + b == b;
    } else {
      assert (a + b)[1..] == a[1..] + b;
      SumOfAppend(a[1..], b, w);
    }
  }

  /** A sum does not depend on the order of its terms. */
  lemma {:induction false} SumOfPermutation<T>(a: seq<T>, b: seq<T>, w: T -> real)
    requires multiset(a) == multiset(b)
    ensures SumOf(a, w) == SumOf(b, w)
    decreases |a|
  {
    if a == [] {
      assert |multiset(b)| == 0;
    } else {
      var x := a[0];
      assert x in multiset(b);
      var i :| 0 <= i < |b| && b[i] == x;
      var rest := b[..i] + b[i + 1..];
      assert b == b[..i] + ([x] + b[i + 1..]);
      SumOfAppend(b[..i], [x] + b[i + 1..], w);
      SumOfAppend(b[..i], b[i + 1..], w);
      assert SumOf(b, w) == w(x) + SumOf(rest, w);
      assert a == [x] + a[1..];
      assert multiset(rest) == multiset(b) - multiset{x};
      SumOfPermutation(a[1..], rest, w);
    }
  }

  /** The distinct elements of `s` in order of first occurrence, as
      `[...new Set(s)]` lists them. */
  function Dedup<T(==,!new)>(s: seq<T>): (r: seq<T>)
    ensures forall x :: x in r <==> x in s
    ensures NoDuplicates(r)
    decreases |s|
  {
    if s == [] then []
    else
      var d := Dedup(s[..|s| - 1]);
      assert forall x :: x in s <==> x in s[..|s| - 1] || x == s[|s| - 1] by {
        assert s == s[..|s| - 1] + [s[|s| - 1]];
      }
      if s[|s| - 1] in d then d else d + [s[|s| - 1]]
  }
}

=== FILE: sorting.dfy ===
/** A stable sort keyed by a string, in either direction.

    `Array.prototype.sort` is required to be stable by section 22.1.3.27 of
    ECMA-262 10th edition (ECMAScript 2019), so a comparator that returns 0
    for equal keys keeps those elements in their input order. That behaviour
    is modelled by insertion sort: each element is placed in front of every
    element with an equal key. Stability is stated as "the elements with any
    one key appear in the same order before and after", and a uniqueness
    lemma shows that this together with sortedness determines the result. */
module Sorting {
  import opened Seqs
  import opened Strings

  datatype Direction = Ascending | Descending

  function Flip(dir: Direction): Direction {
    match dir
    case Ascending => Descending
    case Descending => Ascending
  }

  /** Key `a` must come strictly before key `b` in direction `dir`. */
  predicate Before(dir: Direction, a: string, b: string) {
    match dir
    case Ascending => LexLess(a, b)
    case Descending => LexLess(b, a)
  }

  predicate Sorted<T>(s: seq<T>, key: T -> string, dir: Direction) {
    forall i, j :: 0 <= i < j < |s| ==> !Before(dir, key(s[j]), key(s[i]))
  }

  /** Every key occurs at most once. */
  predicate UniqueKeys<T>(s: seq<T>, key: T -> string) {
    forall i, j :: 0 <= i < j < |s| ==> key(s[i]) != key(s[j])
  }

  /** The elements of `s` whose key is `k`, in order. */
  function WithKey<T(==,!new)>(s: seq<T>, key: T -> string, k: string): seq<T> {
    Filter(s, x => key(x) == k)
  }

  lemma BeforeIrreflexive(dir: Direction, a: string)
    ensures !Before(dir, a, a)
  {
    LexLessIrreflexive(a);
  }

  lemma BeforeAsymmetric(dir: Direction, a: string, b: string)
    ensures !(Before(dir, a, b) && Before(dir, b, a))
  {
    LexLessAsymmetric(a, b);
  }

  lemma BeforeTotal(dir: Direction, a: string, b: string)
    requires a != b
    ensures Before(dir, a, b) || Before(dir, b, a)
  {
    LexLessTotal(a, b);
  }

  /** "Not after" is transitive. */
  lemma NotBeforeTransitive(dir: Direction, a: string, b: string, c: string)
    requires !Before(dir, b, a) && !Before(dir, c, b)
    ensures !Before(dir, c, a)
  {
    if Before(dir, c, a) {
      if a == b {
      } else if b == c {
      } else {
        BeforeTotal(dir, a, b);
        BeforeTotal(dir, b, c);
        match dir
        case Ascending =>
          LexLessTransitive(a, b, c);
          LexLessAsymmetric(a, c);
        case Descending =>
          LexLessTransitive(c, b, a);
          LexLessAsymmetric(a, c);
      }
    }
  }

  /** Insert `x` in front of the first element it does not have to follow. */
  function Insert<T(==)>(x: T, s: seq<T>, key: T -> string, dir: Direction): (r: seq<T>)
    ensures multiset(r) == multiset{x} + multiset(s)
    ensures |r| == |s| + 1
    decreases |s|
  {
    if s != [] && Before(dir, key(s[0]), key(x)) then
      assert s == [s[0]] + s[1..];
      [s[0]] + Insert(x, s[1..], key, dir)
    else [x] + s
  }

  lemma {:induction false} InsertSorted<T>(x: T, s: seq<T>, key: T -> string, dir: Direction)
    requires Sorted(s, key, dir)
    ensures Sorted(Insert(x, s, key, dir), key, dir)
    decreases |s|
  {
    var r := Insert(x, s, key, dir);
    if s != [] && Before(dir, key(s[0]), key(x)) {
      InsertSorted(x, s[1..], key, dir);
      forall j | 0 < j < |r|
        ensures !Before(dir, key(r[j]), key(r[0]))
      {
        assert r[j] in multiset(Insert(x, s[1..], key, dir));
        if r[j] == x {
          BeforeAsymmetric(dir, key(s[0]), key(x));
        } else {
          assert r[j] in multiset(s[1..]);
          var k :| 0 <= k < |s[1..]| && s[1..][k] == r[j];
          assert s[k + 1] == r[j];
        }
      }
    } else {
      forall j | 0 < j < |r|
        ensures !Before(dir, key(r[j]), key(x))
      {
        assert r[j] == s[j - 1];
        if j - 1 > 0 {
          NotBeforeTransitive(dir, key(x), key(s[0]), key(s[j - 1]));
        }
      }
    }
  }

  /** Stable insertion sort of `s` by `key` in direction `dir`. */
  function SortBy<T(==)>(s: seq<T>, key: T -> string, dir: Direction): (r: seq<T>)
    ensures multiset(r) == multiset(s)
    ensures |r| == |s|
    ensures Sorted(r, key, dir)
    decreases |s|
  {
    if s == [] then []
    else
      assert s == [s[0]] + s[1..];
      var rest := SortBy(s[1..], key, dir);
      InsertSorted(s[0], rest, key, dir);
      Insert(s[0], rest, key, dir)
  }

  lemma InsertWithKey<T(!new)>(x: T, s: seq<T>, key: T -> string, dir: Direction, k: string)
    ensures WithKey(Insert(x, s, key, dir), key, k)
         == if key(x) == k then [x] + WithKey(s, key, k) else WithKey(s, key, k)
    decreases |s|
  {
    if s != [] && Before(dir, key(s[0]), key(x)) {
      BeforeIrreflexive(dir, key(x));
      InsertWithKey(x, s[1..], key, dir, k);
      var r := Insert(x, s, key, dir);
      assert r[1..] == Insert(x, s[1..], key, dir);
    } else {
      var r := Insert(x, s, key, dir);
      assert r[1..] == s;
    }
  }

  /** Stability: the elements sharing any one key keep their relative order. */
  lemma {:induction false} SortStable<T(!new)>(s: seq<T>, key: T -> string, dir: Direction, k: string)
    ensures WithKey(SortBy(s, key, dir), key, k) == WithKey(s, key, k)
    decreases |s|
  {
    if s != [] {
      SortStable(s[1..], key, dir, k);
      InsertWithKey(s[0], SortBy(s[1..], key, dir), key, dir, k);
    }
  }

  lemma WithKeyCons<T(!new)>(x: T, s: seq<T>, key: T -> string, k: string)
    ensures WithKey([x] + s, key, k) == if key(x) == k then [x] + WithKey(s, key, k) else WithKey(s, key, k)
  {
    assert ([x] + s)[1..] == s;
  }

  /** The first element of a non-empty sequence shows up under its key. */
  lemma FirstUnderItsKey<T(!new)>(s: seq<T>, key: T -> string)
    requires s != []
    ensures WithKey(s, key, key(s[0])) != []
  {
    assert s[0] in WithKey(s, key, key(s[0]));
  }

  /** With the same first key and the same elements under it, the first
      elements coincide. */
  lemma SameFirstElement<T(!new)>(a: seq<T>, b: seq<T>, key: T -> string)
    requires a != [] && b != [] && key(a[0]) == key(b[0])
    requires WithKey(a, key, key(a[0])) == WithKey(b, key, key(a[0]))
    ensures a[0] == b[0]
  {
    var k := key(a[0]);
    assert WithKey(a, key, k)[0] == a[0];
    assert WithKey(b, key, k)[0] == b[0];
  }

  /** Equal heads and equal per-key subsequences leave equal per-key
      subsequences of the tails. */
  lemma TailsUnderEachKey<T(!new)>(a: seq<T>, b: seq<T>, key: T -> string)
    requires a != [] && b != [] && a[0] == b[0]
    requires forall k :: WithKey(a, key, k) == WithKey(b, key, k)
    ensures forall k :: WithKey(a[1..], key, k) == WithKey(b[1..], key, k)
  {
    assert a == [a[0]] + a[1..] && b == [b[0]] + b[1..];
    forall k
      ensures WithKey(a[1..], key, k) == WithKey(b[1..], key, k)
    {
      WithKeyCons(a[0], a[1..], key, k);
      WithKeyCons(b[0], b[1..], key, k);
    }
  }

  /** Two sorted sequences with the same per-key subsequences start with the
      same key. */
  lemma SortedSameFirstKey<T(!new)>(a: seq<T>, b: seq<T>, key: T -> string, dir: Direction)
    requires a != [] && b != []
    requires Sorted(a, key, dir) && Sorted(b, key, dir)
    requires WithKey(a, key, key(a[0])) == WithKey(b, key, key(a[0]))
    requires WithKey(a, key, key(b[0])) == WithKey(b, key, key(b[0]))
    ensures key(a[0]) == key(b[0])
  {
    var ka, kb := key(a[0]), key(b[0]);
    assert a[0] in WithKey(b, key, ka);
    var j :| 0 <= j < |b| && b[j] == a[0];
    assert !Before(dir, ka, kb) by {
      if j == 0 {
        BeforeIrreflexive(dir, ka);
      }
    }
    assert b[0] in WithKey(a, key, kb);
    var i :| 0 <= i < |a| && a[i] == b[0];
    assert !Before(dir, kb, ka) by {
      if i == 0 {
        BeforeIrreflexive(dir, kb);
      }
    }
    if ka != kb {
      BeforeTotal(dir, ka, kb);
    }
  }

  /** A sorted sequence is determined by what it holds under each key: two
      sorted sequences with the same per-key subsequences are equal. */
  lemma {:induction false} SortedUnique<T(!new)>(a: seq<T>, b: seq<T>, key: T -> string, dir: Direction)
    requires Sorted(a, key, dir) && Sorted(b, key, dir)
    requires forall k :: WithKey(a, key, k) == WithKey(b, key, k)
    ensures a == b
    decreases |a|
  {
    if a == [] && b == [] {
    } else if a == [] {
      FirstUnderItsKey(b, key);
      assert false;
    } else if b == [] {
      FirstUnderItsKey(a, key);
      assert false;
    } else {
      SortedSameFirstKey(a, b, key, dir);
      SameFirstElement(a, b, key);
      TailsUnderEachKey(a, b, key);
      SortedUnique(a[1..], b[1..], key, dir);
    }
  }

  lemma {:induction false} SortedReverse<T>(s: seq<T>, key: T -> string, dir: Direction)
    requires Sorted(s, key, dir)
    ensures Sorted(Reverse(s), key, Flip(dir))
  {
    var r := Reverse(s);
    forall i, j | 0 <= i < j < |r|
      ensures !Before(Flip(dir), key(r[j]), key(r[i]))
    {
      assert r[i] == s[|s| - 1 - i] && r[j] == s[|s| - 1 - j];
    }
  }

  lemma UniqueKeysAtMostOne<T(!new)>(s: seq<T>, key: T -> string, k: string)
    requires UniqueKeys(s, key)
    ensures |WithKey(s, key, k)| <= 1
    decreases |s|
  {
    if s != [] {
      UniqueKeysAtMostOne(s[1..], key, k);
      if key(s[0]) == k {
        FilterDropsAll(s[1..], x => key(x) == k);
      }
    }
  }

  /** Sorting keeps the keys unique. */
  lemma SortKeepsUniqueKeys<T(!new)>(s: seq<T>, key: T -> string, dir: Direction)
    requires UniqueKeys(s, key)
    ensures UniqueKeys(SortBy(s, key, dir), key)
  {
    var r := SortBy(s, key, dir);
    forall i, j | 0 <= i < j < |r|
      ensures key(r[i]) != key(r[j])
    {
      if key(r[i]) == key(r[j]) {
        var k := key(r[i]);
        FilterKeepsTwo(r, x => key(x) == k, i, j);
        SortStable(s, key, dir, k);
        UniqueKeysAtMostOne(s, key, k);
        assert false;
      }
    }
  }

  /** With unique keys, a sorted sequence is strictly ordered. */
  lemma SortedUniqueIsStrict<T>(s: seq<T>, key: T -> string, dir: Direction)
    requires Sorted(s, key, dir) && UniqueKeys(s, key)
    ensures forall i, j :: 0 <= i < j < |s| ==> Before(dir, key(s[i]), key(s[j]))
  {
    forall i, j | 0 <= i < j < |s|
      ensures Before(dir, key(s[i]), key(s[j]))
    {
      BeforeTotal(dir, key(s[i]), key(s[j]));
    }
  }

  /** When no two elements share a key, sorting ascending gives the reverse
      of sorting descending. */
  lemma SortAscendingIsReversedDescending<T(!new)>(s: seq<T>, key: T -> string)
    requires UniqueKeys(s, key)
    ensures SortBy(s, key, Ascending) == Reverse(SortBy(s, key, Descending))
  {
    var up := SortBy(s, key, Ascending);
    var down := SortBy(s, key, Descending);
    SortedReverse(down, key, Descending);
    forall k
      ensures WithKey(up, key, k) == WithKey(Reverse(down), key, k)
    {
      SortStable(s, key, Ascending, k);
      SortStable(s, key, Descending, k);
      FilterReverse(down, x => key(x) == k);
      UniqueKeysAtMostOne(s, key, k);
      var w := WithKey(s, key, k);
      assert Reverse(w) == w;
    }
    SortedUnique(up, Reverse(down), key, Ascending);
  }
}

=== FILE: strings.dfy ===
/** String operations the pages rely on: `startsWith` (the `<=` prefix
    relation on sequences), `toLowerCase` followed by `includes`, and the
    code-unit order JavaScript uses to compare strings. */
module Strings {

  /** `toLowerCase` on one character, for the ASCII letters; other
      characters are left as they are. */
  function LowerChar(c: char): char {
    if 'A' <= c <= 'Z' then (c as int + 32) as char else c
  }

  function Lower(s: string): (r: string)
    ensures |r| == |s|
    ensures forall i :: 0 <= i < |s| ==> r[i] == LowerChar(s[i])
  {
    seq(|s|, i requires 0 <= i < |s| => LowerChar(s[i]))
  }

  /** `hay.includes(needle)`: `needle` occurs at some position of `hay`. */
  predicate Contains(hay: string, needle: string)
    decreases |hay|
  {
    needle <= hay || (|hay| > 0 && Contains(hay[1..], needle))
  }

  /** The empty string occurs in every string. */
  lemma ContainsEmpty(hay: string)
    ensures Contains(hay, "")
  {
  }

  /** `needle` occurs in `hay` starting at index `i`. */
  predicate OccursAt(hay: string, needle: string, i: int) {
    0 <= i && i + |needle| <= |hay| && hay[i..i + |needle|] == needle
  }

  /** `Contains` holds exactly when `needle` occurs at some index of `hay`. */
  lemma {:induction false} ContainsIsOccurrence(hay: string, needle: string)
    ensures Contains(hay, needle) <==> exists i :: OccursAt(hay, needle, i)
    decreases |hay|
  {
    if needle <= hay {
      assert OccursAt(hay, needle, 0);
    } else if |hay| > 0 {
      ContainsIsOccurrence(hay[1..], needle);
      if exists i :: OccursAt(hay[1..], needle, i) {
        var i :| OccursAt(hay[1..], needle, i);
        assert hay[i + 1..i + 1 + |needle|] == hay[1..][i..i + |needle|];
        assert OccursAt(hay, needle, i + 1);
      }
      assert !OccursAt(hay, needle, 0);
      forall i | OccursAt(hay, needle, i)
        ensures OccursAt(hay[1..], needle, i - 1)
      {
        assert hay[1..][i - 1..i - 1 + |needle|] == hay[i..i + |needle|];
      }
    } else {
      assert |needle| > 0;
      assert forall i :: !OccursAt(hay, needle, i);
    }
  }

  /** `hay.toLowerCase().includes(needle.toLowerCase())`. */
  predicate ContainsIgnoringCase(hay: string, needle: string) {
    Contains(Lower(hay), Lower(needle))
  }

  /** Strict order of JavaScript's `<` on strings: the first differing
      character decides, and a proper prefix comes first. */
  predicate LexLess(a: string, b: string)
    decreases |a|
  {
    if |a| == 0 then |b| > 0
    else if |b| == 0 then false
    else if a[0] != b[0] then a[0] < b[0]
    else LexLess(a[1..], b[1..])
  }

  lemma {:induction false} LexLessIrreflexive(a: string)
    ensures !LexLess(a, a)
    decreases |a|
  {
    if |a| > 0 {
      LexLessIrreflexive(a[1..]);
    }
  }

  lemma {:induction false} LexLessAsymmetric(a: string, b: string)
    ensures !(LexLess(a, b) && LexLess(b, a))
    decreases |a|
  {
    if |a| > 0 && |b| > 0 && a[0] == b[0] {
      LexLessAsymmetric(a[1..], b[1..]);
    }
  }

  lemma {:induction false} LexLessTransitive(a: string, b: string, c: string)
    requires LexLess(a, b) && LexLess(b, c)
    ensures LexLess(a, c)
    decreases |a|
  {
    if |a| > 0 && |b| > 0 && |c| > 0 && a[0] == b[0] && b[0] == c[0] {
      LexLessTransitive(a[1..], b[1..], c[1..]);
    }
  }

  /** Any two different strings are ordered one way or the other. */
  lemma {:induction false} LexLessTotal(a: string, b: string)
    requires a != b
    ensures LexLess(a, b) || LexLess(b, a)
    decreases |a|
  {
    if |a| > 0 && |b| > 0 && a[0] == b[0] {
      assert a == [a[0]] + a[1..] && b == [b[0]] + b[1..];
      LexLessTotal(a[1..], b[1..]);
    }
  }
}

=== FILE: transactions.dfy ===
/** The transaction list page: the four-way filter, the date sort, the
    pages of ten, the totals of what the filter kept, the month choices and
    the previous/next controls.

    Dates are compared as strings. For well-formed `YYYY-MM-DD` dates the
    page's `new Date(b.date) - new Date(a.date)` comparator orders them the
    same way, which is the assumption this model makes. */
module TransactionQuery {
  import opened Seqs
  import opened Strings
  import opened Sorting
  import opened Entities
  import FinanceStore

  const PAGE_SIZE: nat := 10

  /** The value a filter control holds when it filters nothing. */
  const ALL: string := "all"

  /** The search box and the type, category and month selectors. */
  datatype Criteria = Criteria(search: string, kind: string, category: string, month: string)

  /** The filter controls as the page first shows them. */
  const INITIAL_CRITERIA: Criteria := Criteria("", ALL, ALL, ALL)

  /** The sort button's first setting. */
  const INITIAL_DIRECTION: Direction := Descending

  /** `t.note || ""`. */
  function NoteText(t: Transaction): string {
    match t.note
    case Some(n) => n
    case None => ""
  }

  predicate MatchesSearch(t: Transaction, search: string) {
    ContainsIgnoringCase(t.category, search) || ContainsIgnoringCase(NoteText(t), search)
  }

  /** All four conditions of the page's filter. */
  predicate Matches(t: Transaction, c: Criteria) {
    && MatchesSearch(t, c.search)
    && (c.kind == ALL || t.kind == c.kind)
    && (c.category == ALL || t.category == c.category)
    && (c.month == ALL || c.month <= t.date)
  }

  /** The filtered list: exactly the matching records, in stored order. */
  function Filtered(ts: seq<Transaction>, c: Criteria): (r: seq<Transaction>)
    ensures IsSubseq(r, ts)
    ensures forall t :: multiset(r)[t] == if Matches(t, c) then multiset(ts)[t] else 0
  {
    Filter(ts, (t: Transaction) => Matches(t, c))
  }

  /** With an empty search and every control on "all", nothing is dropped. */
  lemma InitialFilterKeepsAll(ts: seq<Transaction>)
    ensures Filtered(ts, INITIAL_CRITERIA) == ts
  {
    var c := INITIAL_CRITERIA;
    forall t | t in ts
      ensures Matches(t, c)
    {
      assert Lower("") == "";
      ContainsEmpty(Lower(t.category));
    }
    FilterKeepsAll(ts, (t: Transaction) => Matches(t, c));
  }

  function DateKey(t: Transaction): string { t.date }

  /** The filtered list sorted by date, stably, in the chosen direction. */
  function Ordered(ts: seq<Transaction>, c: Criteria, dir: Direction): (r: seq<Transaction>)
    ensures multiset(r) == multiset(Filtered(ts, c))
    ensures dir == Descending ==> forall i, j :: 0 <= i < j < |r| ==> !LexLess(r[i].date, r[j].date)
    ensures dir == Ascending ==> forall i, j :: 0 <= i < j < |r| ==> !LexLess(r[j].date, r[i].date)
  {
    SortBy(Filtered(ts, c), DateKey, dir)
  }

  /** As the page opens, the list is the whole ledger, newest first. */
  lemma InitialListNewestFirst(ts: seq<Transaction>)
    ensures var r := Ordered(ts, INITIAL_CRITERIA, INITIAL_DIRECTION);
      && multiset(r) == multiset(ts)
      && forall i, j :: 0 <= i < j < |r| ==> !LexLess(r[i].date, r[j].date)
  {
    InitialFilterKeepsAll(ts);
  }

  /** Records sharing a date keep their filtered order. */
  lemma OrderedIsStable(ts: seq<Transaction>, c: Criteria, dir: Direction, date: string)
    ensures WithKey(Ordered(ts, c, dir), DateKey, date) == WithKey(Filtered(ts, c), DateKey, date)
  {
    SortStable(Filtered(ts, c), DateKey, dir, date);
  }

  /** When no two kept records share a date, the ascending list is the
      descending one reversed. */
  lemma DirectionsAreReverses(ts: seq<Transaction>, c: Criteria)
    requires UniqueKeys(Filtered(ts, c), DateKey)
    ensures Ordered(ts, c, Ascending) == Reverse(Ordered(ts, c, Descending))
  {
    SortAscendingIsReversedDescending(Filtered(ts, c), DateKey);
  }

  // ---------------------------------------------------------------- pagination

  /** `Math.ceil(n / 10)`. */
  function TotalPages(n: nat): (r: nat)
    ensures r * PAGE_SIZE >= n
    ensures r > 0 ==> (r - 1) * PAGE_SIZE < n
  {
    (n + PAGE_SIZE - 1) / PAGE_SIZE
  }

  /** How `Array.prototype.slice` reads an index: a negative one counts
      from the end, and both are clamped to the array. */
  function SliceIndex(i: int, n: nat): (r: nat)
    ensures r <= n
  {
    if i < 0 then (if n + i < 0 then 0 else n + i) else if i > n then n else i
  }

  /** `s.slice(start, end)`. */
  function Slice<T>(s: seq<T>, start: int, end: int): seq<T> {
    var a, b := SliceIndex(start, |s|), SliceIndex(end, |s|);
    if a < b then s[a..b] else []
  }

  /** The records page `page` shows (pages count from 1). */
  function Page<T>(s: seq<T>, page: int): seq<T> {
    Slice(s, (page - 1) * PAGE_SIZE, page * PAGE_SIZE)
  }

  function Min(a: int, b: int): int { if a < b then a else b }

  /** Page `p` holds elements `(p-1)*10` up to `p*10` or the end, at most ten
      of them, and nothing once `p` is past the last page. */
  lemma PageContents<T>(s: seq<T>, p: int)
    requires p >= 1
    ensures |Page(s, p)| <= PAGE_SIZE
    ensures (p - 1) * PAGE_SIZE < |s| ==> Page(s, p) == s[(p - 1) * PAGE_SIZE..Min(p * PAGE_SIZE, |s|)]
    ensures p > TotalPages(|s|) ==> Page(s, p) == []
    ensures 1 <= p <= TotalPages(|s|) ==> Page(s, p) != []
  {
  }

  /** Pages 1 to `k`, one after the other. */
  function PagesThrough<T>(s: seq<T>, k: nat): seq<T> {
    if k == 0 then [] else PagesThrough(s, k - 1) + Page(s, k)
  }

  lemma {:induction false} PagesThroughIsPrefix<T>(s: seq<T>, k: nat)
    ensures PagesThrough(s, k) == s[..Min(k * PAGE_SIZE, |s|)]
  {
    if k > 0 {
      PagesThroughIsPrefix(s, k - 1);
      PageContents(s, k);
      var lo := Min((k - 1) * PAGE_SIZE, |s|);
      if (k - 1) * PAGE_SIZE < |s| {
        assert s[..lo] + s[lo..Min(k * PAGE_SIZE, |s|)] == s[..Min(k * PAGE_SIZE, |s|)];
      }
    }
  }

  /** Reading every page in turn gives back the whole list. */
  lemma PagesCoverList<T>(s: seq<T>)
    ensures PagesThrough(s, TotalPages(|s|)) == s
  {
    PagesThroughIsPrefix(s, TotalPages(|s|));
  }

  /** Twenty-three records make three pages, the last holding three. */
  lemma TwentyThreeRecords<T>(s: seq<T>)
    requires |s| == 23
    ensures TotalPages(|s|) == 3 && |Page(s, 3)| == 3
  {
  }

  /** The "‹" control. */
  function PrevPage(p: int): (r: int)
    ensures r >= 1
    ensures p >= 1 ==> r <= p
    ensures p > 1 ==> r == p - 1
    ensures p <= 1 ==> r == 1
  {
    if p - 1 > 1 then p - 1 else 1
  }

  /** The "›" control. */
  function NextPage(p: int, totalPages: int): (r: int)
    ensures r <= totalPages
    ensures p < totalPages ==> r == p + 1
    ensures p >= totalPages ==> r == totalPages
  {
    if p + 1 < totalPages then p + 1 else totalPages
  }

  /** From any page in range, both controls stay in range. */
  lemma PageControlsStayInRange(p: int, totalPages: int)
    requires 1 <= p <= totalPages
    ensures 1 <= PrevPage(p) <= totalPages
    ensures 1 <= NextPage(p, totalPages) <= totalPages
  {
  }

  // ---------------------------------------------------------------- totals

  datatype Totals = Totals(income: real, expenses: real)

  /** The page's `reduce`: income records add to income, every other record
      to expenses. */
  function Tally(ts: seq<Transaction>): Totals
    decreases |ts|
  {
    if ts == [] then Totals(0.0, 0.0)
    else
      var rest := Tally(ts[1..]);
      if ts[0].kind == INCOME then rest.(income := rest.income + ts[0].amount)
      else rest.(expenses := rest.expenses + ts[0].amount)
  }

  lemma {:induction false} TallySplits(ts: seq<Transaction>)
    ensures Tally(ts).income == Total(Filter(ts, IsIncome))
    ensures Tally(ts).expenses == Total(Filter(ts, IsNotIncome))
    decreases |ts|
  {
    if ts != [] {
      TallySplits(ts[1..]);
    }
  }

  /** Totals of what the filter kept, before pagination. */
  function FilteredTotals(ts: seq<Transaction>, c: Criteria, dir: Direction): Totals {
    Tally(Ordered(ts, c, dir))
  }

  function Net(tot: Totals): real {
    tot.income - tot.expenses
  }

  /** The filtered totals cover the whole filtered list, whatever the sort:
      income is its income records, expenses all the others. */
  lemma FilteredTotalsCoverFiltered(ts: seq<Transaction>, c: Criteria, dir: Direction)
    ensures FilteredTotals(ts, c, dir).income == Total(Filter(Filtered(ts, c), IsIncome))
    ensures FilteredTotals(ts, c, dir).expenses == Total(Filter(Filtered(ts, c), IsNotIncome))
    ensures FilteredTotals(ts, c, dir).income + FilteredTotals(ts, c, dir).expenses == Total(Filtered(ts, c))
  {
    var o := Ordered(ts, c, dir);
    var f := Filtered(ts, c);
    TallySplits(o);
    FilterPermutation(o, f, IsIncome);
    FilterPermutation(o, f, IsNotIncome);
    TotalPermutation(Filter(o, IsIncome), Filter(f, IsIncome));
    TotalPermutation(Filter(o, IsNotIncome), Filter(f, IsNotIncome));
    TotalSplitsOnIncome(f);
  }

  /** With the initial controls and every type income or expense, the
      filtered totals are the store's totals and the net is its balance. */
  lemma InitialTotalsAreStoreTotals(ts: seq<Transaction>, dir: Direction)
    requires KnownKinds(ts)
    ensures FilteredTotals(ts, INITIAL_CRITERIA, dir)
         == Totals(FinanceStore.TotalIncome(ts), FinanceStore.TotalExpenses(ts))
    ensures Net(FilteredTotals(ts, INITIAL_CRITERIA, dir)) == FinanceStore.Balance(ts)
  {
    InitialFilterKeepsAll(ts);
    FilteredTotalsCoverFiltered(ts, INITIAL_CRITERIA, dir);
    NotIncomeIsExpense(ts);
  }

  // ---------------------------------------------------------------- months

  /** `transactions.map(t => t.date.slice(0, 7))`. */
  function MonthsOf(ts: seq<Transaction>): (ms: seq<string>)
    ensures |ms| == |ts|
    ensures forall i :: 0 <= i < |ts| ==> ms[i] == MonthOf(ts[i].date)
  {
    seq(|ts|, i requires 0 <= i < |ts| => MonthOf(ts[i].date))
  }

  /** A month string is its own sort key. */
  function MonthKey(m: string): string { m }

  /** The months listed are those some record falls in. */
  lemma MonthsOfMembers(ts: seq<Transaction>, m: string)
    ensures m in MonthsOf(ts) <==> exists t :: t in ts && MonthOf(t.date) == m
  {
    var ms := MonthsOf(ts);
    if exists t :: t in ts && MonthOf(t.date) == m {
      var t :| t in ts && MonthOf(t.date) == m;
      var i :| 0 <= i < |ts| && ts[i] == t;
      assert ms[i] == m;
    }
  }

  /** `[...new Set(months)].sort().reverse()`: each month present once,
      newest first. */
  function Months(ts: seq<Transaction>): (r: seq<string>)
    ensures forall m :: m in r <==> exists t :: t in ts && MonthOf(t.date) == m
    ensures forall i, j :: 0 <= i < j < |r| ==> LexLess(r[j], r[i])
  {
    var distinct := Dedup(MonthsOf(ts));
    var sorted := SortBy(distinct, MonthKey, Ascending);
    MonthsAreListed(ts, distinct, sorted);
    MonthsNewestFirst(distinct, sorted);
    Reverse(sorted)
  }
  /** A ledger whose records all fall in one month offers that month
      alone. */
  lemma OneMonthListed(ts: seq<Transaction>, m: string)
    requires ts != []
    requires forall t :: t in ts ==> MonthOf(t.date) == m
    ensures Months(ts) == [m]
  {
    var ms := Months(ts);
    assert m in ms by {
      assert ts[0] in ts;
    }
    forall x | x in ms
      ensures x == m
    {
      var t :| t in ts && MonthOf(t.date) == x;
    }
    if |ms| > 1 {
      assert ms[0] in ms && ms[1] in ms;
      LexLessIrreflexive(m);
      assert false;
    }
  }


  lemma MonthsAreListed(ts: seq<Transaction>, distinct: seq<string>, sorted: seq<string>)
    requires distinct == Dedup(MonthsOf(ts))
    requires multiset(sorted) == multiset(distinct)
    ensures forall m :: m in Reverse(sorted) <==> exists t :: t in ts && MonthOf(t.date) == m
  {
    forall m
      ensures m in Reverse(sorted) <==> exists t :: t in ts && MonthOf(t.date) == m
    {
      ReverseMembers(sorted, m);
      assert m in sorted <==> m in multiset(sorted);
      assert m in distinct <==> m in multiset(distinct);
      MonthsOfMembers(ts, m);
    }
  }

  lemma MonthsNewestFirst(distinct: seq<string>, sorted: seq<string>)
    requires NoDuplicates(distinct)
    requires sorted == SortBy(distinct, MonthKey, Ascending)
    ensures forall i, j :: 0 <= i < j < |sorted| ==> LexLess(Reverse(sorted)[j], Reverse(sorted)[i])
  {
    MonthsStrictlyAscending(distinct, sorted);
    ReverseOfStrictlyAscending(sorted);
  }

  lemma MonthsStrictlyAscending(distinct: seq<string>, sorted: seq<string>)
    requires NoDuplicates(distinct)
    requires sorted == SortBy(distinct, MonthKey, Ascending)
    ensures forall i, j :: 0 <= i < j < |sorted| ==> LexLess(sorted[i], sorted[j])
  {
    assert UniqueKeys(distinct, MonthKey);
    SortKeepsUniqueKeys(distinct, MonthKey, Ascending);
    SortedUniqueIsStrict(sorted, MonthKey, Ascending);
  }

  lemma ReverseOfStrictlyAscending(s: seq<string>)
    requires forall i, j :: 0 <= i < j < |s| ==> LexLess(s[i], s[j])
    ensures forall i, j :: 0 <= i < j < |s| ==> LexLess(Reverse(s)[j], Reverse(s)[i])
  {
    var r := Reverse(s);
    forall i, j | 0 <= i < j < |r|
      ensures LexLess(r[j], r[i])
    {
      assert r[j] == s[|s| - 1 - j] && r[i] == s[|s| - 1 - i];
    }
  }
}
